=== FILE: README.md ===
# Campus placement portal — a Dafny model of its core

The portal is a Next.js front end over a Firebase document store. Students
browse internship postings and apply to them, follow their applications on a
status board, post company reviews, sign offer letters on a canvas, and send
their resume to a language-model endpoint for three improvements.
Administrators and placement officers see placement figures, a per-department
tally, a filtered student list and its CSV export.

The model keeps what these components compute and decide. The store is one
map per collection. JavaScript truthiness is explicit: an absent field is
`None`, and `0` and `""` are falsy. Store failures, the browser clock, the
store's fresh document ids and the model's reply are parameters.

| module | file | component |
|---|---|---|
| `Wrappers` | wrappers.dfy | `Option` |
| `Seqs` | seqs.dfy | order-preserving subsequence |
| `Text` | text.dfy | JavaScript `join`, `split` on one character, `trim`, `String(n)`, capitalising |
| `Portal` | portal.dfy | the stored records, status names, truthiness |
| `InternshipList` | internship_list.dfy | applying to a posting |
| `AdminDashboard` | admin_dashboard.dfy | placement figures, department tally, student filter, CSV text |
| `ApplicationPipeline` | application_pipeline.dfy | the status board |
| `StudentDashboard` | student_dashboard.dfy | header figures, notification dot, tabs |
| `UseApplications` | use_applications.dfy | the applications subscription hook |
| `AuthStore` | auth_store.dfy | the auth store and the auth-state handler |
| `Routing` | routing.dfy | the role guard and the landing-page redirect |
| `DigitalSignature` | digital_signature.dfy | the signature pad |
| `ExperienceWall` | experience_wall.dfy | posting a review |
| `ResumeAnalyze` | resume_analyze.dfy | the resume-analysis endpoint |

## Model

| member | source | states |
|---|---|---|
| Portal.StatusNameRoundTrip | components/dashboard/ApplicationPipeline.tsx:51 | Status names and statuses correspond one to one: parsing a status's name gives it back, and naming a parsed string gives the string back |
| Text.SplitJoin | components/admin/AdminDashboard.tsx:120 | Splitting a joined list on the separator gives the parts back, when no part holds the separator |
| Text.JoinWithout | components/admin/AdminDashboard.tsx:120 | Joining parts that avoid a character, with a different separator, gives text that avoids it |
| Text.Trim | app/api/resume-analyze/route.ts:34-35 | The trimmed text is a slice of the input with no whitespace at either end; it is empty exactly when the input is all whitespace |
| Text.TrimPadded | app/api/resume-analyze/route.ts:35 | Trimming whitespace padding around a word with non-space ends gives the word |
| Text.NatTextValue | components/admin/AdminDashboard.tsx:116 | The decimal digits written for a number denote that number |
| InternshipList.NewApplication | components/dashboard/InternshipList.tsx:45-57 | The record has status applied, the student's uid, the posting id and the store's commit time, and a one-event timeline labelled "Applied", stamped with the browser clock, whose description names both the posting's title and its company |
| InternshipList.Bumped | components/dashboard/InternshipList.tsx:63-64 | The counter becomes `(applicants \|\| 0) + 1` and nothing else of the posting changes |
| InternshipList.Apply | components/dashboard/InternshipList.tsx:21-74 | A signed-out user and a failed GPA or year gate write nothing and leave the flag alone. Past the gates, the flag is set to the posting and then cleared. A successful write adds exactly one application under the fresh id. The counter is bumped on the stored posting only after that write, a successful read and a successful update. Success is reported exactly when every store call that ran succeeded |
| InternshipList.ApplyingFlagCleared | components/dashboard/InternshipList.tsx:43-73 | Every attempt that passes the gates ends with the `applying` flag cleared, whether or not the writes fail; an attempt stopped before leaves the flag as it was |
| InternshipList.GpaGate | components/dashboard/InternshipList.tsx:28-34 | The GPA gate rejects exactly when `(gpa \|\| 0) < (minGpa \|\| 0)`, before the year is looked at, and writes nothing |
| InternshipList.YearGate | components/dashboard/InternshipList.tsx:36-41 | The year gate rejects exactly when the list is present and non-empty and the year is present, non-zero and not listed |
| InternshipList.DepartmentIgnored | components/dashboard/InternshipList.tsx:27-41 | The posting's department criterion never changes the outcome or the store |
| InternshipList.AppliedRecord | components/dashboard/InternshipList.tsx:45-57 | The written application has status applied, the student's uid and the posting id, and one "Applied" timeline event naming the title and company |
| InternshipList.ExampleGpaRejection | components/dashboard/InternshipList.tsx:31-34 | GPA 7.5 against a minimum of 8.0 is refused with both figures and nothing written |
| InternshipList.ExampleAccepted | components/dashboard/InternshipList.tsx:45-65 | An eligible student gets one application and the counter goes from 7 to 8 |
| AdminDashboard.PlacedStudents | components/admin/AdminDashboard.tsx:71-75 | An id is in the set exactly when some accepted or offer-received application carries it |
| AdminDashboard.Placement | components/admin/AdminDashboard.tsx:80-84 | `placed` is the number of distinct placed ids, `total` the number of students, and the two parts add up to the total |
| AdminDashboard.PlacedCountsStudentsOnce | components/admin/AdminDashboard.tsx:71-81 | A further application by an already placed student changes nothing; any further application raises `placed` by at most one |
| AdminDashboard.UnplacedCanBeNegative | components/admin/AdminDashboard.tsx:82 | With one placed id and no student documents, `unplaced` is -1: nothing clamps it |
| AdminDashboard.Bump | components/admin/AdminDashboard.tsx:94 | One count goes up by one, starting from 0 for a new name; every other count is kept |
| AdminDashboard.DepartmentStats | components/admin/AdminDashboard.tsx:90-97 | The keys are exactly the departments that occur, and each count is the number of students in that department |
| AdminDashboard.DepartmentCountsSum | components/admin/AdminDashboard.tsx:90-97 | The department counts add up to the number of students |
| AdminDashboard.UnknownDepartment | components/admin/AdminDashboard.tsx:93 | A student with no department or an empty one is counted under "Unknown" |
| AdminDashboard.FilterStudents | components/admin/AdminDashboard.tsx:131-138 | The result keeps the input order and holds exactly the students that pass every active filter, each record as many times as it occurs in the input and the others not at all; with no filter active it is the whole list |
| AdminDashboard.CsvRow | components/admin/AdminDashboard.tsx:112-118 | Five cells: name, email and department with "N/A" when falsy; the year's digits, with a leading "-" for a negative year, or "N/A" when it is absent or 0; the GPA's text, or "N/A" when it is absent or 0 |
| AdminDashboard.CsvTable | components/admin/AdminDashboard.tsx:111-120 | The header row first, then one row per student in order |
| AdminDashboard.CsvLines | components/admin/AdminDashboard.tsx:120 | Each line is its row joined with commas |
| AdminDashboard.HeaderLine | components/admin/AdminDashboard.tsx:111-120 | The header line is `Name,Email,Department,Year,GPA` |
| AdminDashboard.CsvLineStructure | components/admin/AdminDashboard.tsx:109-120 | When no cell holds a newline, the text splits into the header line and then one line per student, each that student's joined row |
| AdminDashboard.CsvText | components/admin/AdminDashboard.tsx:120 | The text opens with the header line, followed by a line break exactly when there is a student row |
| AdminDashboard.ExportCsv | components/admin/AdminDashboard.tsx:109-120 | The exported text opens with the header line, and is exactly the header line when no student passes the filters |
| AdminDashboard.ExportCsvLines | components/admin/AdminDashboard.tsx:109-120 | When no student's field holds a newline, the export has `filtered.length + 1` lines: the header line, then one line per filtered student in order, that student's joined row |
| AdminDashboard.CsvCellsRoundTrip | components/admin/AdminDashboard.tsx:109-120 | When no cell holds a comma or a newline, each line splits back into the header or that student's five cells |
| AdminDashboard.CommaInNameAddsCell | components/admin/AdminDashboard.tsx:113-120 | A comma in a name makes the row split into six cells, because nothing is quoted |
| ApplicationPipeline.WithStatusMeaning | components/dashboard/ApplicationPipeline.tsx:45-49 | The list for a status keeps the input order and holds exactly the applications with that status |
| ApplicationPipeline.Group | components/dashboard/ApplicationPipeline.tsx:45-49 | A status is a key only when its list is non-empty, and that list is the applications with that status in input order; an absent key has none |
| ApplicationPipeline.GroupPlacesEach | components/dashboard/ApplicationPipeline.tsx:45-49 | Every application sits in the group of its own status and in no other |
| ApplicationPipeline.GroupKeys | components/dashboard/ApplicationPipeline.tsx:46 | A name is a key exactly when some application has that status |
| ApplicationPipeline.GroupKeepsOrder | components/dashboard/ApplicationPipeline.tsx:47 | Within a group the applications keep their input order |
| ApplicationPipeline.Columns | components/dashboard/ApplicationPipeline.tsx:51-61 | Five columns in the fixed status order, each the applications with that status |
| ApplicationPipeline.Pipeline | components/dashboard/ApplicationPipeline.tsx:21-105 | The skeleton exactly while loading; otherwise the empty state exactly for no applications; otherwise a failed render exactly when some status is outside the five, since the detailed list finds no configuration for it; otherwise the board, whose columns together show every application once |
| ApplicationPipeline.ColumnsCoverKnown | components/dashboard/ApplicationPipeline.tsx:51-61 | When every status is one of the five, the columns together hold as many entries as there are applications |
| ApplicationPipeline.EmptyColumn | components/dashboard/ApplicationPipeline.tsx:61 | A column is empty exactly when no application has its status |
| ApplicationPipeline.StatusOrderIsKnown | components/dashboard/ApplicationPipeline.tsx:51 | The column order is applied, interviewing, offer received, accepted, rejected |
| StudentDashboard.AppliedCount | components/dashboard/StudentDashboard.tsx:37 | The applied figure is the number of times "applied" occurs among the stored statuses |
| StudentDashboard.InterviewingCount | components/dashboard/StudentDashboard.tsx:38 | The interviewing figure is the number of times "interviewing" occurs among the stored statuses |
| StudentDashboard.OfferCount | components/dashboard/StudentDashboard.tsx:39 | The offer figure is the number of "offer_received" statuses plus the number of "accepted" ones |
| StudentDashboard.CountDisjoint | components/dashboard/StudentDashboard.tsx:37-39 | Counts over disjoint status sets add up |
| StudentDashboard.CountPositive | components/dashboard/StudentDashboard.tsx:37-70 | A count is positive exactly when some application has a counted status |
| StudentDashboard.FiguresSum | components/dashboard/StudentDashboard.tsx:37-39 | The applied, interviewing and offer figures add up to all applications except the rejected ones and those of an unknown status |
| StudentDashboard.FiguresSumKnown | components/dashboard/StudentDashboard.tsx:37-39 | With only the five statuses, the figures add up to the applications that are not rejected |
| StudentDashboard.NotificationDot | components/dashboard/StudentDashboard.tsx:70-72 | The dot shows exactly when some application is still applied |
| StudentDashboard.Rendered | components/dashboard/StudentDashboard.tsx:119-126 | Exactly one panel renders, the active tab's own |
| StudentDashboard.PanelsDistinct | components/dashboard/StudentDashboard.tsx:119-126 | Different tabs render different panels |
| StudentDashboard.OpensOnInternships | components/dashboard/StudentDashboard.tsx:24-121 | The dashboard opens on the internship list |
| UseApplications.SubscriptionId | hooks/useApplications.ts:30 | The argument when it is non-empty, else the signed-in user's non-empty uid, else none |
| UseApplications.Subscribe | hooks/useApplications.ts:29-40 | The list is untouched and the subscription is for the resolved id; loading ends at once exactly when there is no id, and otherwise keeps its value until the first snapshot |
| UseApplications.Join | hooks/useApplications.ts:47-59 | The title and company are attached only for a non-empty posting id that exists; nothing else of the document changes |
| UseApplications.JoinAll | hooks/useApplications.ts:45-61 | Same length and order as the snapshot, each document joined |
| UseApplications.OnSnapshot | hooks/useApplications.ts:44-64 | A failed posting read leaves the state as it was; otherwise loading ends and the list holds the snapshot's documents in order with their ids, students and statuses |
| UseApplications.OnError | hooks/useApplications.ts:65-68 | A subscription error only ends loading |
| UseApplications.JoinOnlyAttaches | hooks/useApplications.ts:53-56 | Dropping the attached summary gives back each document as stored |
| UseApplications.MissingPostingAsStored | hooks/useApplications.ts:49-52 | A document with no posting id, or whose posting is gone, is shown as stored |
| UseApplications.JoinIdempotent | hooks/useApplications.ts:45-61 | Joining twice is the same as joining once |
| UseApplications.ArgumentWins | hooks/useApplications.ts:30 | A non-empty student id argument beats the signed-in uid |
| UseApplications.NoIdNoApplications | hooks/useApplications.ts:31-34 | With no id at all the list stays empty and loading ends |
| AuthStore.SetUser | store/authStore.ts:38 | Sets the user and keeps the rest of the state |
| AuthStore.SetFirebaseUser | store/authStore.ts:39 | Sets the provider user and keeps the rest |
| AuthStore.SetLoading | store/authStore.ts:40 | Sets the flag and keeps the rest |
| AuthStore.Merge | store/authStore.ts:45 | The document's own `uid` field wins over the document id; the other fields are the document's |
| AuthStore.FetchUserProfile | store/authStore.ts:41-64 | A failed read returns null and changes nothing. An existing document becomes the user with nothing written. A missing one is written as the default student and becomes the user, unless the write fails, which returns null and changes nothing. At most the user's own document is added |
| AuthStore.FetchWritesOnlyOwnDoc | store/authStore.ts:43-58 | Every existing document is kept, and the only new one is the caller's default document |
| AuthStore.SecondFetchNoWrite | store/authStore.ts:44-47 | A second fetch for the same uid writes nothing and finds the same user |
| AuthStore.DefaultRoundTrip | store/authStore.ts:45-56 | The default document read back is the default profile |
| AuthStore.HandlerCalls | components/providers/AuthProvider.tsx:12-19 | Three calls: store the provider user; then fetch the profile on sign-in or clear the user on sign-out; then end loading |
| AuthStore.OnAuthStateChanged | components/providers/AuthProvider.tsx:12-20 | Afterwards the provider user is the event's and loading is over. A sign-out leaves no user and writes nothing; a sign-in leaves the user and documents the fetch produces |
| AuthStore.SignInOutcomes | components/providers/AuthProvider.tsx:14-15 | A sign-in with a stored profile makes it the user with nothing written; a first sign-in creates and sets the default student |
| AuthStore.FetchBeforeLoadingCleared | components/providers/AuthProvider.tsx:14-19 | On sign-in the fetch comes before the only call that sets loading |
| AuthStore.SignedOutFromStart | store/authStore.ts:35-37 | From the initial state, a sign-out event ends loading with no user |
| Routing.GuardRedirect | components/auth/ProtectedRoute.tsx:19-27 | No redirect while loading; any redirect goes to "/"; a signed-out user is always redirected once loading ends |
| Routing.GuardView | components/auth/ProtectedRoute.tsx:29-41 | A spinner exactly while loading; the children exactly when loaded, signed in and admitted by the role list |
| Routing.RedirectIffHidden | components/auth/ProtectedRoute.tsx:19-41 | Once loaded, the browser is redirected exactly when the children are not shown, and exactly when the user is not admitted |
| Routing.LoadingHoldsStill | components/auth/ProtectedRoute.tsx:20-35 | While loading, the children never show and nobody is redirected |
| Routing.NoRolesAdmitsAll | components/auth/ProtectedRoute.tsx:23-37 | Without a role list every signed-in user is admitted |
| Routing.EmptyRolesAdmitNone | components/auth/ProtectedRoute.tsx:23-37 | An empty role list is truthy and admits no one |
| Routing.DashboardRejectsStaff | app/dashboard/page.tsx:10 | The student dashboard turns away admin and placement-officer users and sends them to "/" |
| Routing.DashboardAdmitsStudents | app/dashboard/page.tsx:10 | The student dashboard lets students in |
| Routing.HomeRedirect | app/page.tsx:14-23 | No redirect while loading or signed out; admins and placement officers go to "/admin", students to "/dashboard" |
| Routing.HomeView | app/page.tsx:25-37 | A spinner exactly while loading; the login page exactly when loaded and signed out |
| Routing.HomeSendsSomewhere | app/page.tsx:17-21 | Every signed-in user is sent to one of the two areas |
| Routing.LoginIffNoRedirect | app/page.tsx:15-35 | Once loaded, the login page shows exactly when no redirect is due |
| Routing.LandingMatchesDashboardGuard | app/page.tsx:17-21 | The landing page sends a user to the dashboard exactly when the dashboard's guard admits them |
| DigitalSignature.Step | components/dashboard/DigitalSignature.tsx:22-73 | Pen down starts drawing on a drawable canvas; a move signs only while drawing on one; pen up stops drawing; Clear unsigns a drawable canvas. A signature appears only through a move while drawing |
| DigitalSignature.SignatureNeedsStroke | components/dashboard/DigitalSignature.tsx:38-58 | From an unsigned pad, a signature after any input sequence needs some move while drawing |
| DigitalSignature.FreshPadNeedsStroke | components/dashboard/DigitalSignature.tsx:19-58 | The same from a fresh pad |
| DigitalSignature.MoveWhileIdle | components/dashboard/DigitalSignature.tsx:39 | A move while not drawing changes nothing |
| DigitalSignature.StrokeSigns | components/dashboard/DigitalSignature.tsx:22-62 | Pen down, move, pen up on a drawable canvas leaves the pad signed and not drawing |
| DigitalSignature.HandleSign | components/dashboard/DigitalSignature.tsx:75-85 | The image is handed over exactly when the canvas is mounted and signed, and it is the canvas's PNG data URL |
| DigitalSignature.FreshPadRefused | components/dashboard/DigitalSignature.tsx:20-80 | Signing a fresh pad is refused and its buttons are disabled |
| DigitalSignature.EnabledSignSigns | components/dashboard/DigitalSignature.tsx:75-131 | An enabled Sign button on a mounted canvas always signs |
| ExperienceWall.DifficultyLabel | components/dashboard/ExperienceWall.tsx:269 | The badge is the stored difficulty with its first letter upper-cased and the rest unchanged |
| ExperienceWall.DifficultyLabels | components/dashboard/ExperienceWall.tsx:269 | The badges read Easy, Medium and Hard |
| ExperienceWall.DifficultyLabelsDistinct | components/dashboard/ExperienceWall.tsx:269 | Different difficulties get different badges |
| ExperienceWall.ReviewOf | components/dashboard/ExperienceWall.tsx:64-72 | The review carries the form's fields and the user's uid, is unverified, and is stamped with the commit time |
| ExperienceWall.HandleSubmit | components/dashboard/ExperienceWall.tsx:56-86 | Without a user only the sign-in prompt; a failed write changes nothing; a successful write adds exactly the new review and resets and hides the form |
| ExperienceWall.PostedReview | components/dashboard/ExperienceWall.tsx:64-72 | A posted review is the user's form content, unverified, and earlier reviews are untouched |
| ExperienceWall.Toggle | components/dashboard/ExperienceWall.tsx:115 | The button flips the form's visibility and keeps its content |
| ExperienceWall.ToggleTwice | components/dashboard/ExperienceWall.tsx:115 | Two presses restore the wall |
| ResumeAnalyze.Spans | app/api/resume-analyze/route.ts:33 | The pieces of `split(/\d+\./)` lie inside the text: there is at least one, the first starts at the start of the text and the last ends at its end |
| ResumeAnalyze.SpansMeaning | app/api/resume-analyze/route.ts:33 | No match of the pattern starts inside a piece, and between neighbouring pieces lies exactly one whole match: a maximal digit run and its dot |
| ResumeAnalyze.Fragments | app/api/resume-analyze/route.ts:33 | `text.split(/\d+\./)` gives at least one piece, none containing a digit followed by a dot; the first piece opens the text and the last closes it |
| ResumeAnalyze.NumberedListSplits | app/api/resume-analyze/route.ts:33 | Items separated by numbered markers split back into those items when no item holds a marker |
| ResumeAnalyze.Cleaned | app/api/resume-analyze/route.ts:34-35 | The trimmed pieces in order with the blank ones dropped: an order-keeping subsequence of the trimmed pieces that holds every non-empty one as often as it occurs and no empty one; every kept item is non-empty with no whitespace at its ends |
| ResumeAnalyze.CleanedNoBlank | app/api/resume-analyze/route.ts:34-35 | When no piece is blank, cleaning only trims |
| ResumeAnalyze.ParseImprovements | app/api/resume-analyze/route.ts:32-36 | At most three items, the first of the cleaned pieces in their order; fewer pieces are not padded |
| ResumeAnalyze.ParsedItemsClean | app/api/resume-analyze/route.ts:33-35 | Every parsed item is non-empty, has no whitespace at either end and holds no numbered marker |
| ResumeAnalyze.UnnumberedText | app/api/resume-analyze/route.ts:32-36 | Text with no marker and some non-space character parses to itself trimmed |
| ResumeAnalyze.Markers | app/api/resume-analyze/route.ts:20-23 | The markers of the requested format: the i-th is a run of digits denoting i, followed by a dot |
| ResumeAnalyze.ListReplyRoundTrip | app/api/resume-analyze/route.ts:20-36 | A reply in the requested numbered format, one item per line, parses back to its items, the first three when there are more |
| ResumeAnalyze.NumberedReplyExample | app/api/resume-analyze/route.ts:32-36 | The reply "1. Add metrics", "2. Fix formatting", "3. Tailor keywords" on three lines parses to exactly those three items |
| ResumeAnalyze.JobBlock | app/api/resume-analyze/route.ts:18 | The job block begins with its heading exactly for a truthy job description and is empty otherwise |
| ResumeAnalyze.Prompt | app/api/resume-analyze/route.ts:16-25 | The prompt begins with the reviewer instructions |
| ResumeAnalyze.ResumeInPrompt | app/api/resume-analyze/route.ts:18 | The resume text sits right after its heading, which follows the job block |
| ResumeAnalyze.JobBlockIffTruthy | app/api/resume-analyze/route.ts:18 | A "Job Description:" heading follows the instructions exactly when the job description is truthy |
| ResumeAnalyze.Post | app/api/resume-analyze/route.ts:6-46 | A malformed body gives 500. A falsy resume text gives 400 without calling the model. A model error gives 500 with its message. Otherwise 200 with at most three improvements parsed from the reply and a prompt that carries the request's fields |

A failed posting read or counter update after the application was written is
reported as a failure, and the application stays written; `InternshipList.Apply`
states exactly that.

## Left out

- Toasts, console logging, spinners' markup, charts, icons and styling: presentation only.
- The Firestore SDK itself: queries, snapshot ordering (`orderBy`), the `where` filters and the live subscription are replaced by the documents they return, given as parameters.
- Timestamps (`new Date().toISOString()`, `serverTimestamp()`) are opaque strings passed in.
- Concurrency: two applications racing on the applicant counter, duplicate applications by one student, and effects re-running while a promise is pending.
- NaN, and the GPA as a string or any other non-number: GPAs are reals, years integers.
- `{ id, ...data }` in the applications hook: a stored `id` field would override the document id; the model keeps the document id.
- JavaScript object keys: a status or department named like an `Object.prototype` member, and integer-like keys that `Object.entries` lists first, are not modelled; the tally keeps insertion order.
- AdminDashboard.CsvRow: `gpaText` stands for JavaScript's number-to-string conversion of a real and is a parameter; years use an exact integer-to-decimal conversion.
- The CSV download (blob, object URL, file name with the current time): browser I/O. The CSV text is not RFC 4180: nothing is quoted.
- The placement percentage (`Math.round`) and the chart data: floating point and presentation.
- The student documents the placement total counts are given already filtered to role "student".
- Roles: a user's stored `role` is assumed to be one of "student", "admin" and "tpo". A user with a missing or other role would be sent by the landing page to "/dashboard", whose `["student"]` guard sends them back to "/", and the two pages would keep redirecting to each other; the model cannot express such a user.
- The profile fields `resumeURL` and `skills`, and the `preferences` object, are not read by the core. The applications' `documents` field is not read either.
- The review list's subscription and the ExperienceWall loading view; posting validation in the form markup (required fields, the 1-5 rating bounds) is left to the browser.
- The language-model call: its reply or error is a parameter. A non-string `resumeText` or `jobDescription` in the JSON body is not modelled.
- Canvas drawing: coordinates, stroke style and the pixel contents; only whether a canvas and its 2-D context exist and its exported data URL.
- The identity provider's user object is reduced to its uid; sign-in and sign-out themselves, and unsubscribing, are not modelled.
- StudentDashboard.FiguresSum: a status outside the five known ones is counted by no figure; its exact sum is stated with that count subtracted.
- The chat route, the resume upload component, the navigation bars, the Firebase configuration and the Next.js configuration are not part of this model.

=== FILE: admin_dashboard.dfy ===
/** The admin dashboard's computations over fetched records: the
    placed/unplaced fold, the per-department tally, the three-criteria
    student filter and the CSV text of the filtered rows. The CSV is plain
    comma and newline joining: no field is quoted or escaped. */
module AdminDashboard {
  import opened Wrappers
  import opened Portal
  import opened Seqs
  import opened Text

  // ----- placement statistics -----

  datatype PlacementStats = PlacementStats(placed: int, unplaced: int, total: int)

  /** An application that makes its student count as placed. */
  predicate MarksPlaced(s: Status) {
    s == Accepted || s == OfferReceived
  }

  /** The set of `studentId`s of placing applications. */
  function PlacedStudents(apps: seq<Application>): (r: set<string>)
    ensures forall id :: id in r <==>
              exists i :: 0 <= i < |apps| && MarksPlaced(apps[i].status) && apps[i].studentId == id
    decreases |apps|
  {
    if |apps| == 0 then {}
    else
      var last := apps[|apps| - 1];
      var before := PlacedStudents(apps[..|apps| - 1]);
      if MarksPlaced(last.status) then before + {last.studentId} else before
  }

  /** `fetchPlacementStats`: `placed` counts distinct placed students over all
      applications, `total` counts the student documents, and `unplaced` is
      their difference, not clamped at zero. */
  function Placement(apps: seq<Application>, students: seq<UserProfile>): (r: PlacementStats)
    ensures r.placed == |PlacedStudents(apps)|
    ensures r.total == |students|
    ensures r.placed + r.unplaced == r.total
  {
    var placed := |PlacedStudents(apps)|;
    PlacementStats(placed, |students| - placed, |students|)
  }

  /** A student with several placing applications is counted once: a further
      application by an already-placed student changes nothing, and any
      further application raises `placed` by at most one. */
  lemma PlacedCountsStudentsOnce(apps: seq<Application>, a: Application, students: seq<UserProfile>)
    ensures a.studentId in PlacedStudents(apps) ==> Placement(apps + [a], students) == Placement(apps, students)
    ensures Placement(apps, students).placed <= Placement(apps + [a], students).placed
                                             <= Placement(apps, students).placed + 1
  {
    assert (apps + [a])[..|apps|] == apps;
    if a.studentId in PlacedStudents(apps) {
      assert PlacedStudents(apps + [a]) == PlacedStudents(apps);
    }
  }

  /** `unplaced` goes negative exactly when more distinct placed ids occur
      than there are student documents (the ids need not be students). */
  lemma UnplacedCanBeNegative()
    ensures var a := Application("x", "p", Accepted, [], "t", None);
            Placement([a], []) == PlacementStats(1, -1, 0)
  {
    var a := Application("x", "p", Accepted, [], "t", None);
    assert PlacedStudents([a]) == {"x"} by {
      assert [a][..0] == [];
    }
  }

  // ----- department tally -----

  /** The department a student is tallied under: `department || "Unknown"`. */
  function DepartmentOf(s: UserProfile): (d: string)
    ensures TruthyText(s.profile.department) ==> d == s.profile.department.value
    ensures !TruthyText(s.profile.department) ==> d == "Unknown"
  {
    TextOr(s.profile.department, "Unknown")
  }

  function Departments(students: seq<UserProfile>): (r: seq<string>)
    ensures |r| == |students|
    ensures forall i :: 0 <= i < |students| ==> r[i] == DepartmentOf(students[i])
    decreases |students|
  {
    if |students| == 0 then [] else Departments(students[..|students| - 1]) + [DepartmentOf(students[|students| - 1])]
  }

  /** A record of counts keyed by name; `keys` lists the names in insertion
      order, the order `Object.entries` reports them in. */
  datatype Tally = Tally(keys: seq<string>, count: map<string, int>)

  ghost predicate WellFormed(t: Tally) {
    && (forall i, j :: 0 <= i < j < |t.keys| ==> t.keys[i] != t.keys[j])
    && (forall k :: k in t.count <==> k in t.keys)
  }

  /** The sum of the counts, in key order. */
  function Total(keys: seq<string>, count: map<string, int>): int
    requires forall i :: 0 <= i < |keys| ==> keys[i] in count
    decreases |keys|
  {
    if |keys| == 0 then 0 else Total(keys[..|keys| - 1], count) + count[keys[|keys| - 1]]
  }

  /** `deptCounts[dept] = (deptCounts[dept] || 0) + 1`. */
  function Bump(t: Tally, k: string): (r: Tally)
    requires WellFormed(t)
    ensures WellFormed(r)
    ensures forall j :: j in r.count <==> j in t.count || j == k
    ensures r.count[k] == (if k in t.count then t.count[k] else 0) + 1
    ensures forall j :: j in t.count && j != k ==> r.count[j] == t.count[j]
  {
    if k in t.count then Tally(t.keys, t.count[k := t.count[k] + 1])
    else Tally(t.keys + [k], t.count[k := 1])
  }

  /** `calculateDepartmentStats`, folding over the students in order. */
  function DepartmentStats(students: seq<UserProfile>): (r: Tally)
    ensures WellFormed(r)
    ensures forall d :: d in r.count <==> d in Departments(students)
    ensures forall d :: d in r.count ==> r.count[d] == multiset(Departments(students))[d]
    decreases |students|
  {
    if |students| == 0 then Tally([], map[])
    else
      var init := students[..|students| - 1];
      var t := DepartmentStats(init);
      var d := DepartmentOf(students[|students| - 1]);
      assert Departments(students) == Departments(init) + [d];
      Bump(t, d)
  }

  /** Raising one listed count by one raises the total by one. */
  lemma {:induction false} TotalIncrement(keys: seq<string>, count: map<string, int>, k: string)
    requires forall i :: 0 <= i < |keys| ==> keys[i] in count
    requires forall i, j :: 0 <= i < j < |keys| ==> keys[i] != keys[j]
    requires k in keys
    ensures Total(keys, count[k := count[k] + 1]) == Total(keys, count) + 1
    decreases |keys|
  {
    var init := keys[..|keys| - 1];
    if keys[|keys| - 1] == k {
      assert k !in init;
      TotalUnlisted(init, count, k, count[k] + 1);
    } else {
      assert k in init;
      TotalIncrement(init, count, k);
    }
  }

  /** Changing the count of a name that is not listed leaves the total alone. */
  lemma {:induction false} TotalUnlisted(keys: seq<string>, count: map<string, int>, k: string, v: int)
    requires forall i :: 0 <= i < |keys| ==> keys[i] in count
    requires k !in keys
    ensures Total(keys, count[k := v]) == Total(keys, count)
    decreases |keys|
  {
    if |keys| > 0 {
      TotalUnlisted(keys[..|keys| - 1], count, k, v);
    }
  }

  /** Each bump adds exactly one to the total. */
  lemma BumpTotal(t: Tally, k: string)
    requires WellFormed(t)
    ensures Total(Bump(t, k).keys, Bump(t, k).count) == Total(t.keys, t.count) + 1
  {
    if k in t.count {
      TotalIncrement(t.keys, t.count, k);
    } else {
      TotalUnlisted(t.keys, t.count, k, 1);
      var r := Bump(t, k);
      assert r.keys[..|r.keys| - 1] == t.keys;
    }
  }

  /** The department counts add up to the number of students. */
  lemma {:induction false} DepartmentCountsSum(students: seq<UserProfile>)
    ensures Total(DepartmentStats(students).keys, DepartmentStats(students).count) == |students|
    decreases |students|
  {
    if |students| > 0 {
      var init := students[..|students| - 1];
      DepartmentCountsSum(init);
      BumpTotal(DepartmentStats(init), DepartmentOf(students[|students| - 1]));
    }
  }

  /** Students without a department, or with an empty one, are counted under "Unknown". */
  lemma UnknownDepartment(students: seq<UserProfile>)
    requires exists i :: 0 <= i < |students| && !TruthyText(students[i].profile.department)
    ensures "Unknown" in DepartmentStats(students).count
    ensures DepartmentStats(students).count["Unknown"] >= 1
  {
    var i :| 0 <= i < |students| && !TruthyText(students[i].profile.department);
    var ds := Departments(students);
    assert ds[i] == "Unknown";
    assert "Unknown" in ds;
    assert "Unknown" in multiset(ds);
  }

  // ----- student filter -----

  /** The filter controls: a year, a department and a minimum GPA, each null when unset. */
  datatype Filters = Filters(year: Option<int>, department: Option<string>, minGpa: Option<real>)

  /** A year or department filter is active only when truthy; a minimum GPA whenever it is set, 0 included. */
  predicate NoFilters(f: Filters) {
    !TruthyInt(f.year) && !TruthyText(f.department) && f.minGpa.None?
  }

  predicate Matches(f: Filters, s: UserProfile) {
    && (TruthyInt(f.year) ==> s.profile.year == f.year)
    && (TruthyText(f.department) ==> s.profile.department == f.department)
    && (f.minGpa.Some? ==> GpaOrZero(s.profile.gpa) >= f.minGpa.value)
  }

  /** `getFilteredStudents`: the students that pass every active filter, in their original order. */
  function FilterStudents(students: seq<UserProfile>, f: Filters): (r: seq<UserProfile>)
    ensures IsSubsequence(r, students)
    ensures forall s :: s in r <==> s in students && Matches(f, s)
    ensures forall i :: 0 <= i < |r| ==>
              && (TruthyInt(f.year) ==> r[i].profile.year == f.year)
              && (TruthyText(f.department) ==> r[i].profile.department == f.department)
              && (f.minGpa.Some? ==> GpaOrZero(r[i].profile.gpa) >= f.minGpa.value)
    ensures NoFilters(f) ==> r == students
    ensures forall s :: multiset(r)[s] == if Matches(f, s) then multiset(students)[s] else 0
    decreases |students|
  {
    if |students| == 0 then []
    else
      var rest := FilterStudents(students[1..], f);
      assert students == [students[0]] + students[1..];
      assert forall s :: s in students <==> s == students[0] || s in students[1..];
      if Matches(f, students[0]) then [students[0]] + rest
      else rest
  }

  // ----- CSV export -----

  const CsvHeader: seq<string> := ["Name", "Email", "Department", "Year", "GPA"]

  /** The five cells of a student's row; a falsy field is written "N/A".
      `gpaText` is JavaScript's number-to-string conversion. */
  function CsvRow(s: UserProfile, gpaText: real -> string): (r: seq<string>)
    ensures |r| == 5
    ensures r[0] == TextOr(s.displayName, "N/A")
    ensures r[1] == TextOr(s.email, "N/A")
    ensures r[2] == TextOr(s.profile.department, "N/A")
    ensures r[3] == "N/A" <==> !TruthyInt(s.profile.year)
    ensures TruthyInt(s.profile.year) && s.profile.year.value > 0 ==>
              (forall k :: 0 <= k < |r[3]| ==> IsDigit(r[3][k])) && DecimalValue(r[3]) == s.profile.year.value
    ensures TruthyInt(s.profile.year) && s.profile.year.value < 0 ==>
              |r[3]| >= 2 && r[3][0] == '-' && (forall k :: 1 <= k < |r[3]| ==> IsDigit(r[3][k]))
              && DecimalValue(r[3][1..]) == -s.profile.year.value
    ensures s.profile.gpa.None? || s.profile.gpa.value == 0.0 ==> r[4] == "N/A"
    ensures s.profile.gpa.Some? && s.profile.gpa.value != 0.0 ==> r[4] == gpaText(s.profile.gpa.value)
  {
    var year := if TruthyInt(s.profile.year) then IntText(s.profile.year.value) else "N/A";
    assert TruthyInt(s.profile.year) ==> year != "N/A" by {
      if TruthyInt(s.profile.year) {
        assert year[0] != 'N';
      }
    }
    assert TruthyInt(s.profile.year) && s.profile.year.value > 0 ==> DecimalValue(year) == s.profile.year.value by {
      if TruthyInt(s.profile.year) && s.profile.year.value > 0 {
        NatTextValue(s.profile.year.value);
      }
    }
    assert TruthyInt(s.profile.year) && s.profile.year.value < 0 ==> year[1..] == NatText(-s.profile.year.value) by {
      if TruthyInt(s.profile.year) && s.profile.year.value < 0 {
        assert year == "-" + NatText(-s.profile.year.value);
      }
    }
    assert TruthyInt(s.profile.year) && s.profile.year.value < 0 ==> DecimalValue(year[1..]) == -s.profile.year.value by {
      if TruthyInt(s.profile.year) && s.profile.year.value < 0 {
        NatTextValue(-s.profile.year.value);
      }
    }
    var gpa := if s.profile.gpa.Some? && s.profile.gpa.value != 0.0 then gpaText(s.profile.gpa.value) else "N/A";
    [TextOr(s.displayName, "N/A"), TextOr(s.email, "N/A"), TextOr(s.profile.department, "N/A"), year, gpa]
  }

  /** The header row followed by one row per student. */
  function CsvTable(students: seq<UserProfile>, gpaText: real -> string): (t: seq<seq<string>>)
    ensures |t| == |students| + 1
    ensures t[0] == CsvHeader
    ensures forall i :: 0 <= i < |students| ==> t[i + 1] == CsvRow(students[i], gpaText)
  {
    [CsvHeader] + seq(|students|, i requires 0 <= i < |students| => CsvRow(students[i], gpaText))
  }

  function CsvLines(table: seq<seq<string>>): (lines: seq<string>)
    ensures |lines| == |table|
    ensures forall i :: 0 <= i < |table| ==> lines[i] == Join(table[i], ',')
  {
    seq(|table|, i requires 0 <= i < |table| => Join(table[i], ','))
  }

  /** The header line, `Name,Email,Department,Year,GPA`. */
  const HeaderText: string := Join(CsvHeader, ',')

  /** `[headers, ...rows].map(row => row.join(",")).join("\n")`: the text
      opens with the header line, and a line break follows it exactly when
      there is a student row. */
  function CsvText(students: seq<UserProfile>, gpaText: real -> string): (t: string)
    ensures |t| >= |HeaderText| && t[..|HeaderText|] == HeaderText
    ensures |students| > 0 <==> |t| > |HeaderText|
    ensures |students| > 0 ==> t[|HeaderText|] == '\n'
  {
    var lines := CsvLines(CsvTable(students, gpaText));
    assert |lines| == |students| + 1 && lines[0] == HeaderText;
    JoinFirst(lines, '\n');
    Join(lines, '\n')
  }

  /** A joined text opens with its first part, followed by the separator
      exactly when more parts follow. */
  lemma JoinFirst(parts: seq<string>, sep: char)
    requires |parts| > 0
    ensures var t := Join(parts, sep);
            && |t| >= |parts[0]| && t[..|parts[0]|] == parts[0]
            && (|parts| > 1 <==> |t| > |parts[0]|)
            && (|parts| > 1 ==> t[|parts[0]|] == sep)
  {
  }

  /** `exportToCSV`: the CSV text of the currently filtered students. It
      opens with the header line, which is the whole text when no student
      passes the filters. */
  function ExportCsv(students: seq<UserProfile>, f: Filters, gpaText: real -> string): (t: string)
    ensures |t| >= |HeaderText| && t[..|HeaderText|] == HeaderText
    ensures |FilterStudents(students, f)| == 0 <==> t == HeaderText
  {
    CsvText(FilterStudents(students, f), gpaText)
  }

  /** No cell of any row holds the character `c`. */
  predicate CellsAvoid(students: seq<UserProfile>, gpaText: real -> string, c: char) {
    forall i, j :: 0 <= i < |students| && 0 <= j < 5 ==> c !in CsvRow(students[i], gpaText)[j]
  }

  /** A part that holds the separator joins like the two parts around it. */
  lemma JoinSplitsPart(a: string, b: string, rest: seq<string>, sep: char)
    ensures Join([a + [sep] + b] + rest, sep) == Join([a, b] + rest, sep)
  {
    assert ([a, b] + rest)[1..] == [b] + rest;
    assert ([a + [sep] + b] + rest)[1..] == rest;
    assert ([b] + rest)[1..] == rest;
  }

  /** Joining a first part onto at least one more. */
  lemma JoinCons(a: string, rest: seq<string>, sep: char)
    requires |rest| > 0
    ensures Join([a] + rest, sep) == a + [sep] + Join(rest, sep)
  {
    assert ([a] + rest)[1..] == rest;
  }

  /** The header line: the five column names with a comma between neighbours. */
  lemma HeaderLine()
    ensures Join(CsvHeader, ',') == "Name" + "," + "Email" + "," + "Department" + "," + "Year" + "," + "GPA"
  {
    JoinCons("Year", ["GPA"], ',');
    JoinCons("Department", ["Year", "GPA"], ',');
    JoinCons("Email", ["Department", "Year", "GPA"], ',');
    JoinCons("Name", ["Email", "Department", "Year", "GPA"], ',');
  }

  /** A row whose cells avoid `c` gives a line that avoids `c`. */
  lemma RowAvoids(s: UserProfile, gpaText: real -> string, c: char)
    requires c != ','
    requires forall j :: 0 <= j < 5 ==> c !in CsvRow(s, gpaText)[j]
    ensures c !in Join(CsvRow(s, gpaText), ',')
  {
    JoinWithout(CsvRow(s, gpaText), ',', c);
  }

  /** When no field holds a newline, the text has one line per student plus
      the header line, which comes first; the lines are the joined rows. */
  lemma CsvLineStructure(students: seq<UserProfile>, gpaText: real -> string)
    requires CellsAvoid(students, gpaText, '\n')
    ensures var lines := Split(CsvText(students, gpaText), '\n');
            && |lines| == |students| + 1
            && lines[0] == Join(CsvHeader, ',')
            && forall i :: 0 <= i < |students| ==> lines[i + 1] == Join(CsvRow(students[i], gpaText), ',')
  {
    var table := CsvTable(students, gpaText);
    var lines := CsvLines(table);
    assert lines[0] == Join(CsvHeader, ',');
    forall i | 0 <= i < |lines| ensures '\n' !in lines[i] {
      if i > 0 {
        var s := students[i - 1];
        assert forall j :: 0 <= j < 5 ==> '\n' !in CsvRow(s, gpaText)[j];
        RowAvoids(s, gpaText, '\n');
      }
    }
    SplitJoin(lines, '\n');
  }

  /** The export of the filtered students: when no student's field holds a
      newline, the header line and then one line per filtered student, in
      order, `filtered.length + 1` lines in all. */
  lemma ExportCsvLines(students: seq<UserProfile>, f: Filters, gpaText: real -> string)
    requires CellsAvoid(students, gpaText, '\n')
    ensures var shown := FilterStudents(students, f);
            var lines := Split(ExportCsv(students, f, gpaText), '\n');
            && |lines| == |shown| + 1
            && lines[0] == HeaderText
            && forall i :: 0 <= i < |shown| ==> lines[i + 1] == Join(CsvRow(shown[i], gpaText), ',')
  {
    var shown := FilterStudents(students, f);
    forall i, j | 0 <= i < |shown| && 0 <= j < 5 ensures '\n' !in CsvRow(shown[i], gpaText)[j] {
      assert shown[i] in shown;
      var k :| 0 <= k < |students| && students[k] == shown[i];
    }
    CsvLineStructure(shown, gpaText);
  }

  /** When no field holds a comma or a newline, every data line splits back
      into that student's five cells. With a comma inside a field the row
      splits into more than five cells: nothing is quoted. */
  lemma CsvCellsRoundTrip(students: seq<UserProfile>, gpaText: real -> string)
    requires CellsAvoid(students, gpaText, '\n') && CellsAvoid(students, gpaText, ',')
    ensures var lines := Split(CsvText(students, gpaText), '\n');
            && |lines| == |students| + 1
            && Split(lines[0], ',') == CsvHeader
            && forall i :: 0 <= i < |students| ==> Split(lines[i + 1], ',') == CsvRow(students[i], gpaText)
  {
    CsvLineStructure(students, gpaText);
    SplitJoin(CsvHeader, ',');
    forall i | 0 <= i < |students| ensures Split(Join(CsvRow(students[i], gpaText), ','), ',') == CsvRow(students[i], gpaText) {
      assert forall j :: 0 <= j < 5 ==> ',' !in CsvRow(students[i], gpaText)[j];
      SplitJoin(CsvRow(students[i], gpaText), ',');
    }
  }

  /** A comma in a name shifts the columns: the row splits into six cells. */
  lemma CommaInNameAddsCell(gpaText: real -> string)
    ensures var s := UserProfile("u", Some("a@b"), Some("Doe" + "," + " Jane"), Student, NoProfile);
            |Split(Join(CsvRow(s, gpaText), ','), ',')| == 6
  {
    var s := UserProfile("u", Some("a@b"), Some("Doe" + "," + " Jane"), Student, NoProfile);
    var row := CsvRow(s, gpaText);
    var rest := ["a@b", "N/A", "N/A", "N/A"];
    assert row == ["Doe" + "," + " Jane"] + rest;
    var parts := ["Doe", " Jane"] + rest;
    JoinSplitsPart("Doe", " Jane", rest, ',');
    SplitJoin(parts, ',');
  }
}

=== FILE: application_pipeline.dfy ===
/** The application pipeline board: the loading and empty states, the
    grouping of a student's applications by status, and the five status
    columns in their fixed order. */
module ApplicationPipeline {
  import opened Portal
  import opened Seqs

  /** The applications whose status is stored as `name`, in input order. */
  function WithStatus(apps: seq<Doc>, name: string): (r: seq<Doc>)
    ensures |r| <= |apps|
    decreases |apps|
  {
    if |apps| == 0 then []
    else
      var rest := WithStatus(apps[1..], name);
      if StatusName(apps[0].data.status) == name then [apps[0]] + rest else rest
  }

  /** The list for `name` holds the applications with status `name`, each
      as often as it occurs, in input order. */
  lemma {:induction false} WithStatusMeaning(apps: seq<Doc>, name: string)
    ensures var r := WithStatus(apps, name);
            && IsSubsequence(r, apps)
            && (forall a :: a in r <==> a in apps && StatusName(a.data.status) == name)
            && (forall i :: 0 <= i < |r| ==> StatusName(r[i].data.status) == name)
            && (forall a :: multiset(r)[a] == if StatusName(a.data.status) == name then multiset(apps)[a] else 0)
    decreases |apps|
  {
    if |apps| > 0 {
      WithStatusMeaning(apps[1..], name);
      assert forall a :: a in apps <==> a == apps[0] || a in apps[1..];
      assert apps == [apps[0]] + apps[1..];
      assert multiset(apps) == multiset([apps[0]]) + multiset(apps[1..]);
      var rest := WithStatus(apps[1..], name);
      if StatusName(apps[0].data.status) == name {
        assert ([apps[0]] + rest)[1..] == rest;
        assert multiset([apps[0]] + rest) == multiset([apps[0]]) + multiset(rest);
      }
    }
  }

  /** Filtering a longer list: the new last application joins the end of
      its own status's list and no other. */
  lemma {:induction false} WithStatusSnoc(apps: seq<Doc>, a: Doc, name: string)
    ensures WithStatus(apps + [a], name)
         == WithStatus(apps, name) + (if StatusName(a.data.status) == name then [a] else [])
    decreases |apps|
  {
    if |apps| > 0 {
      assert (apps + [a])[1..] == apps[1..] + [a];
      WithStatusSnoc(apps[1..], a, name);
    } else {
      assert ([] + [a])[1..] == [];
    }
  }

  /** `grouped`: the reduce that appends each application, in order, to the
      list under its status name, creating the list on first use. A name is
      a key exactly when some application has that status, and its list is
      the applications with that status in input order. */
  function Group(apps: seq<Doc>): (g: map<string, seq<Doc>>)
    ensures forall k :: k in g ==> g[k] == WithStatus(apps, k) && g[k] != []
    ensures forall k :: k !in g ==> WithStatus(apps, k) == []
    decreases |apps|
  {
    if |apps| == 0 then map[]
    else
      var init := apps[..|apps| - 1];
      var last := apps[|apps| - 1];
      var acc := Group(init);
      var key := StatusName(last.data.status);
      assert apps == init + [last];
      forall k ensures WithStatus(apps, k) == WithStatus(init, k) + (if key == k then [last] else []) {
        WithStatusSnoc(init, last, k);
      }
      acc[key := (if key in acc then acc[key] else []) + [last]]
  }

  /** The statuses shown as columns, in order. */
  const StatusOrder: seq<string> := ["applied", "interviewing", "offer_received", "accepted", "rejected"]

  /** `grouped[status] || []`: a status nobody has gives an empty column. */
  function Column(g: map<string, seq<Doc>>, name: string): seq<Doc> {
    if name in g then g[name] else []
  }

  /** The five columns: one per status of `StatusOrder`, each the
      applications with that status in input order. */
  function Columns(apps: seq<Doc>): (cols: seq<seq<Doc>>)
    ensures |cols| == |StatusOrder|
    ensures forall i :: 0 <= i < |cols| ==> cols[i] == WithStatus(apps, StatusOrder[i])
  {
    var g := Group(apps);
    seq(|StatusOrder|, i requires 0 <= i < |StatusOrder| => Column(g, StatusOrder[i]))
  }

  /** What the component renders. `Crashed` stands for the render throwing:
      the detailed list looks up `statusConfig[app.status]` for every
      application, and for a status outside the five it finds no entry and
      reading its `icon` fails. */
  datatype View = Skeleton | NoApplications | Board(columns: seq<seq<Doc>>) | Crashed

  /** Some application has a status outside the five known ones. */
  predicate HasUnknownStatus(apps: seq<Doc>) {
    exists i :: 0 <= i < |apps| && apps[i].data.status.Other?
  }

  /** Loading shows the skeleton whatever the list; otherwise an empty list
      shows the empty state; otherwise an unknown status makes the render
      fail, and with only known statuses the board shows every application
      in exactly one of its columns. */
  function Pipeline(apps: seq<Doc>, loading: bool): (v: View)
    ensures v.Skeleton? <==> loading
    ensures v.NoApplications? <==> !loading && |apps| == 0
    ensures v.Crashed? <==> !loading && HasUnknownStatus(apps)
    ensures v.Board? <==> !loading && |apps| > 0 && !HasUnknownStatus(apps)
    ensures v.Board? ==> v.columns == Columns(apps) && TotalSize(v.columns) == |apps|
  {
    if loading then Skeleton
    else if |apps| == 0 then NoApplications
    else if HasUnknownStatus(apps) then Crashed
    else
      ColumnsCoverKnown(apps);
      Board(Columns(apps))
  }

  /** Each application is in the group of its own status and in no other. */
  lemma GroupPlacesEach(apps: seq<Doc>, i: nat, k: string)
    requires i < |apps|
    ensures var g := Group(apps);
            && StatusName(apps[i].data.status) in g
            && apps[i] in g[StatusName(apps[i].data.status)]
            && (k in g && apps[i] in g[k] ==> k == StatusName(apps[i].data.status))
  {
    WithStatusMeaning(apps, StatusName(apps[i].data.status));
    WithStatusMeaning(apps, k);
    assert apps[i] in apps;
  }

  /** The keys of `grouped` are exactly the statuses that occur. */
  lemma GroupKeys(apps: seq<Doc>, k: string)
    ensures k in Group(apps) <==> exists i :: 0 <= i < |apps| && StatusName(apps[i].data.status) == k
  {
    WithStatusMeaning(apps, k);
    var g := Group(apps);
    if k in g {
      var a := g[k][0];
      assert a in g[k];
      var i :| 0 <= i < |apps| && apps[i] == a;
    } else {
      forall i | 0 <= i < |apps| ensures StatusName(apps[i].data.status) != k {
        assert apps[i] in apps;
      }
    }
  }

  /** Within a group the applications keep their input order. */
  lemma GroupKeepsOrder(apps: seq<Doc>, k: string)
    requires k in Group(apps)
    ensures IsSubsequence(Group(apps)[k], apps)
  {
    WithStatusMeaning(apps, k);
  }

  /** The sizes of the five status lists. */
  function KnownSizes(apps: seq<Doc>): nat {
    |WithStatus(apps, "applied")| + |WithStatus(apps, "interviewing")| + |WithStatus(apps, "offer_received")|
    + |WithStatus(apps, "accepted")| + |WithStatus(apps, "rejected")|
  }

  /** When every application has one of the five statuses, the five lists
      together hold all of them. */
  lemma {:induction false} KnownSizesCount(apps: seq<Doc>)
    requires forall i :: 0 <= i < |apps| ==> IsKnown(apps[i].data.status)
    ensures KnownSizes(apps) == |apps|
    decreases |apps|
  {
    if |apps| > 0 {
      assert IsKnown(apps[0].data.status);
      KnownSizesCount(apps[1..]);
    }
  }

  /** Sum of the sizes of a list of columns. */
  function TotalSize(cols: seq<seq<Doc>>): nat
    decreases |cols|
  {
    if |cols| == 0 then 0 else |cols[0]| + TotalSize(cols[1..])
  }

  /** With the five known statuses only, the columns together show every
      application exactly as many times as it occurs. */
  lemma ColumnsCoverKnown(apps: seq<Doc>)
    requires forall i :: 0 <= i < |apps| ==> IsKnown(apps[i].data.status)
    ensures TotalSize(Columns(apps)) == |apps|
  {
    var cols := Columns(apps);
    KnownSizesCount(apps);
    TotalSizeFive(cols);
  }

  lemma TotalSizeFive(cols: seq<seq<Doc>>)
    requires |cols| == 5
    ensures TotalSize(cols) == |cols[0]| + |cols[1]| + |cols[2]| + |cols[3]| + |cols[4]|
  {
    var c1 := cols[1..];
    var c2 := c1[1..];
    var c3 := c2[1..];
    var c4 := c3[1..];
    assert TotalSize(c4) == |cols[4]| by {
      assert c4[1..] == [];
    }
    assert TotalSize(c3) == |cols[3]| + TotalSize(c4);
    assert TotalSize(c2) == |cols[2]| + TotalSize(c3);
    assert TotalSize(c1) == |cols[1]| + TotalSize(c2);
  }

  /** A column is empty exactly when no application has its status. */
  lemma EmptyColumn(apps: seq<Doc>, i: nat)
    requires i < |StatusOrder|
    ensures Columns(apps)[i] == [] <==>
            forall j :: 0 <= j < |apps| ==> StatusName(apps[j].data.status) != StatusOrder[i]
  {
    var col := Columns(apps)[i];
    WithStatusMeaning(apps, StatusOrder[i]);
    if col != [] {
      assert col[0] in col;
    } else {
      forall j | 0 <= j < |apps| ensures StatusName(apps[j].data.status) != StatusOrder[i] {
        assert apps[j] in apps;
        assert apps[j] !in col;
      }
    }
  }

  /** The columns' statuses are the five known statuses in this order. */
  lemma StatusOrderIsKnown()
    ensures StatusOrder == [StatusName(Applied), StatusName(Interviewing), StatusName(OfferReceived),
                            StatusName(Accepted), StatusName(Rejected)]
  {
  }
}

=== FILE: auth_store.dfy ===
/** The auth store (its state, setters and get-or-create profile fetch) and
    the auth-state handler that drives it on every sign-in and sign-out. */
module AuthStore {
  import opened Wrappers
  import opened Portal

  /** The identity provider's user object; only its uid is used. */
  datatype AuthUser = AuthUser(uid: string)

  datatype AuthState = AuthState(user: Option<UserProfile>, firebaseUser: Option<AuthUser>, loading: bool)

  /** No user, no provider user, loading. */
  const Initial := AuthState(None, None, true)

  function SetUser(st: AuthState, user: Option<UserProfile>): (r: AuthState)
    ensures r.user == user && r.firebaseUser == st.firebaseUser && r.loading == st.loading
  {
    st.(user := user)
  }

  function SetFirebaseUser(st: AuthState, u: Option<AuthUser>): (r: AuthState)
    ensures r.firebaseUser == u && r.user == st.user && r.loading == st.loading
  {
    st.(firebaseUser := u)
  }

  function SetLoading(st: AuthState, loading: bool): (r: AuthState)
    ensures r.loading == loading && r.user == st.user && r.firebaseUser == st.firebaseUser
  {
    st.(loading := loading)
  }

  /** `{ uid, ...data }`: the document's fields win, so a stored `uid`
      field replaces the document id. */
  function Merge(uid: string, d: UserDoc): (p: UserProfile)
    ensures p.uid == d.uidField.GetOr(uid)
    ensures p.email == d.email && p.displayName == d.displayName && p.role == d.role && p.profile == d.profile
  {
    UserProfile(d.uidField.GetOr(uid), d.email, d.displayName, d.role, d.profile)
  }

  /** The profile written for a user without a document: a student with no
      email, name or academic profile. */
  function DefaultDoc(uid: string): UserDoc {
    UserDoc(Some(uid), None, None, Student, NoProfile)
  }

  function DefaultProfile(uid: string): UserProfile {
    UserProfile(uid, None, None, Student, NoProfile)
  }

  /** The state, the users collection and the promise's value after a fetch. */
  datatype Fetched = Fetched(state: AuthState, users: map<string, UserDoc>, returned: Option<UserProfile>)

  /** `fetchUserProfile(uid)`: read `users/uid`; an existing document becomes
      the user with nothing written; a missing one is created as the default
      student profile, which becomes the user. A failed read or write
      returns null and leaves the user as it was. */
  function FetchUserProfile(st: AuthState, users: map<string, UserDoc>, uid: string,
                            readFails: bool, writeFails: bool): (r: Fetched)
    ensures r.state.firebaseUser == st.firebaseUser && r.state.loading == st.loading
    ensures readFails ==> r == Fetched(st, users, None)
    ensures !readFails && uid in users ==>
              r.users == users && r.returned == Some(Merge(uid, users[uid])) && r.state.user == r.returned
    ensures !readFails && uid !in users && writeFails ==> r == Fetched(st, users, None)
    ensures !readFails && uid !in users && !writeFails ==>
              && r.users == users[uid := DefaultDoc(uid)]
              && r.returned == Some(DefaultProfile(uid)) && r.state.user == r.returned
    ensures r.returned.Some? ==> r.state.user == r.returned
    ensures r.returned.None? ==> r.state == st
    ensures r.users.Keys == users.Keys || r.users.Keys == users.Keys + {uid}
  {
    if readFails then Fetched(st, users, None)
    else if uid in users then
      var p := Merge(uid, users[uid]);
      Fetched(SetUser(st, Some(p)), users, Some(p))
    else if writeFails then Fetched(st, users, None)
    else
      var p := DefaultProfile(uid);
      Fetched(SetUser(st, Some(p)), users[uid := DefaultDoc(uid)], Some(p))
  }

  /** Only the document `users/uid` can change, and only from absent to the default. */
  lemma FetchWritesOnlyOwnDoc(st: AuthState, users: map<string, UserDoc>, uid: string, readFails: bool, writeFails: bool)
    ensures var r := FetchUserProfile(st, users, uid, readFails, writeFails);
            && (forall k :: k in users ==> k in r.users && r.users[k] == users[k])
            && (forall k :: k in r.users && k !in users ==> k == uid && r.users[k] == DefaultDoc(uid))
  {
  }

  /** A second fetch for the same uid writes nothing and finds the same user. */
  lemma SecondFetchNoWrite(st: AuthState, users: map<string, UserDoc>, uid: string, writeFails: bool)
    ensures var first := FetchUserProfile(st, users, uid, false, writeFails);
            var second := FetchUserProfile(first.state, first.users, uid, false, writeFails);
            second.users == first.users
            && (first.returned.Some? ==> second.returned == first.returned && second.state == first.state)
  {
  }

  /** The default document read back is the default profile. */
  lemma DefaultRoundTrip(uid: string)
    ensures Merge(uid, DefaultDoc(uid)) == DefaultProfile(uid)
  {
  }

  // ----- the auth-state handler -----

  /** The store calls the handler makes, in order. */
  datatype Call = CallSetFirebaseUser(u: Option<AuthUser>) | CallFetch(uid: string)
                | CallSetUser(user: Option<UserProfile>) | CallSetLoading(loading: bool)

  /** The handler's calls for one auth event: store the provider user, then
      fetch the profile when signed in or clear the user when signed out,
      then end loading. */
  function HandlerCalls(event: Option<AuthUser>): (cs: seq<Call>)
    ensures |cs| == 3 && cs[0] == CallSetFirebaseUser(event) && cs[2] == CallSetLoading(false)
    ensures event.Some? ==> cs[1] == CallFetch(event.value.uid)
    ensures event.None? ==> cs[1] == CallSetUser(None)
  {
    [CallSetFirebaseUser(event),
     if event.Some? then CallFetch(event.value.uid) else CallSetUser(None),
     CallSetLoading(false)]
  }

  /** The store and users collection a handler run works on. */
  datatype World = World(state: AuthState, users: map<string, UserDoc>)

  /** Performs one call; the fetch's read and write may fail. */
  function Step(w: World, c: Call, readFails: bool, writeFails: bool): World {
    match c
    case CallSetFirebaseUser(u) => w.(state := SetFirebaseUser(w.state, u))
    case CallFetch(uid) =>
      var f := FetchUserProfile(w.state, w.users, uid, readFails, writeFails);
      World(f.state, f.users)
    case CallSetUser(user) => w.(state := SetUser(w.state, user))
    case CallSetLoading(l) => w.(state := SetLoading(w.state, l))
  }

  /** Performs the calls in order. */
  function Perform(w: World, cs: seq<Call>, readFails: bool, writeFails: bool): World
    decreases |cs|
  {
    if |cs| == 0 then w
    else Perform(Step(w, cs[0], readFails, writeFails), cs[1..], readFails, writeFails)
  }

  /** `onAuthStateChanged`'s callback. */
  function OnAuthStateChanged(w: World, event: Option<AuthUser>, readFails: bool, writeFails: bool): (r: World)
    ensures r.state.firebaseUser == event
    ensures !r.state.loading
    ensures event.None? ==> r.state.user.None? && r.users == w.users
    ensures event.Some? ==>
              var f := FetchUserProfile(w.state.(firebaseUser := event), w.users, event.value.uid, readFails, writeFails);
              r.state.user == f.state.user && r.users == f.users
  {
    var cs := HandlerCalls(event);
    var w1 := Step(w, cs[0], readFails, writeFails);
    var w2 := Step(w1, cs[1], readFails, writeFails);
    var w3 := Step(w2, cs[2], readFails, writeFails);
    assert Perform(w2, cs[2..], readFails, writeFails) == w3 by {
      assert cs[2..][1..] == [];
    }
    assert Perform(w1, cs[1..], readFails, writeFails) == w3 by {
      assert cs[1..][1..] == cs[2..];
    }
    Perform(w, cs, readFails, writeFails)
  }

  /** A sign-in with a stored profile makes that profile the user and
      writes nothing; a first sign-in creates the default student. */
  lemma SignInOutcomes(w: World, u: AuthUser)
    ensures var r := OnAuthStateChanged(w, Some(u), false, false);
            && (u.uid in w.users ==> r.users == w.users && r.state.user == Some(Merge(u.uid, w.users[u.uid])))
            && (u.uid !in w.users ==>
                  r.users == w.users[u.uid := DefaultDoc(u.uid)] && r.state.user == Some(DefaultProfile(u.uid)))
  {
  }

  /** The profile is fetched before loading is cleared: in the handler's
      calls the fetch comes before the only call that sets loading. */
  lemma FetchBeforeLoadingCleared(event: Option<AuthUser>)
    requires event.Some?
    ensures var cs := HandlerCalls(event);
            exists i, j ::
              && 0 <= i < j < |cs| && cs[i] == CallFetch(event.value.uid) && cs[j] == CallSetLoading(false)
              && (forall k :: 0 <= k < j ==> !cs[k].CallSetLoading?)
  {
    var cs := HandlerCalls(event);
    assert cs[1] == CallFetch(event.value.uid) && cs[2] == CallSetLoading(false);
  }

  /** From the initial state, a signed-out event ends loading with no user. */
  lemma SignedOutFromStart(users: map<string, UserDoc>)
    ensures OnAuthStateChanged(World(Initial, users), None, false, false) == World(AuthState(None, None, false), users)
  {
  }
}

=== FILE: digital_signature.dfy ===
/** The signature pad's state machine: pointer events move the
    isDrawing/hasSignature flags, and signing hands over the canvas image
    only once something was drawn. Drawing coordinates and strokes are not
    modelled; only whether the canvas and its 2-D context are there. */
module DigitalSignature {
  import opened Wrappers

  /** The canvas element: whether it yields a 2-D context, and the PNG data
      URL it would export. */
  datatype Canvas = Canvas(hasContext: bool, dataUrl: string)

  datatype Pad = Pad(isDrawing: bool, hasSignature: bool)

  const InitialPad := Pad(false, false)

  /** Pointer down, pointer move, pointer up or leave, and the Clear button. */
  datatype Input = Start | Move | Stop | Clear

  /** The canvas can be drawn on: it is mounted and gives a context. */
  predicate Drawable(canvas: Option<Canvas>) {
    canvas.Some? && canvas.value.hasContext
  }

  /** `startDrawing`, `draw`, `stopDrawing` and `clearSignature`. */
  function Step(p: Pad, canvas: Option<Canvas>, e: Input): (r: Pad)
    ensures e == Start ==> r == (if Drawable(canvas) then p.(isDrawing := true) else p)
    ensures e == Move ==> r == (if p.isDrawing && Drawable(canvas) then p.(hasSignature := true) else p)
    ensures e == Stop ==> r == p.(isDrawing := false)
    ensures e == Clear ==> r == (if Drawable(canvas) then p.(hasSignature := false) else p)
    ensures r.hasSignature && !p.hasSignature ==> e == Move && p.isDrawing
  {
    match e
    case Start =>
      if canvas.None? then p
      else if !canvas.value.hasContext then p
      else p.(isDrawing := true)
    case Move =>
      if !p.isDrawing then p
      else if canvas.None? then p
      else if !canvas.value.hasContext then p
      else p.(hasSignature := true)
    case Stop => p.(isDrawing := false)
    case Clear =>
      if canvas.None? then p
      else if !canvas.value.hasContext then p
      else p.(hasSignature := false)
  }

  /** The pad after a sequence of inputs. */
  function Run(p: Pad, canvas: Option<Canvas>, es: seq<Input>): Pad
    decreases |es|
  {
    if |es| == 0 then p else Step(Run(p, canvas, es[..|es| - 1]), canvas, es[|es| - 1])
  }

  /** Starting unsigned, the pad is signed only if some move happened while
      drawing. */
  lemma {:induction false} SignatureNeedsStroke(p: Pad, canvas: Option<Canvas>, es: seq<Input>)
    requires !p.hasSignature
    requires Run(p, canvas, es).hasSignature
    ensures exists i :: 0 <= i < |es| && es[i] == Move && Run(p, canvas, es[..i]).isDrawing
    decreases |es|
  {
    var init := es[..|es| - 1];
    var before := Run(p, canvas, init);
    if before.hasSignature {
      SignatureNeedsStroke(p, canvas, init);
      var i :| 0 <= i < |init| && init[i] == Move && Run(p, canvas, init[..i]).isDrawing;
      assert init[..i] == es[..i];
    } else {
      assert es[..|es| - 1] == init;
    }
  }

  /** A fresh pad is signed only through a move while drawing. */
  lemma FreshPadNeedsStroke(canvas: Option<Canvas>, es: seq<Input>)
    requires Run(InitialPad, canvas, es).hasSignature
    ensures exists i :: 0 <= i < |es| && es[i] == Move && Run(InitialPad, canvas, es[..i]).isDrawing
  {
    SignatureNeedsStroke(InitialPad, canvas, es);
  }

  /** A move while not drawing changes nothing. */
  lemma MoveWhileIdle(p: Pad, canvas: Option<Canvas>)
    requires !p.isDrawing
    ensures Step(p, canvas, Move) == p
  {
  }

  /** Pen down then a move signs a drawable pad. */
  lemma StrokeSigns(canvas: Option<Canvas>)
    requires Drawable(canvas)
    ensures Run(InitialPad, canvas, [Start, Move, Stop]) == Pad(false, true)
  {
    assert [Start, Move, Stop][..2] == [Start, Move];
    assert [Start, Move][..1] == [Start];
    assert [Start][..0] == [];
  }

  datatype SignOutcome = Signed(signatureData: string) | SignatureMissing

  /** `handleSign`: the canvas image goes to `onSign` only with a mounted
      canvas and a signature; otherwise the user is asked for one. */
  function HandleSign(p: Pad, canvas: Option<Canvas>): (r: SignOutcome)
    ensures r.Signed? <==> canvas.Some? && p.hasSignature
    ensures r.Signed? ==> r.signatureData == canvas.value.dataUrl
  {
    if canvas.None? || !p.hasSignature then SignatureMissing
    else Signed(canvas.value.dataUrl)
  }

  /** The Clear and Sign buttons are disabled without a signature. */
  function ButtonsDisabled(p: Pad): (disabled: bool)
    ensures disabled <==> !p.hasSignature
  {
    !p.hasSignature
  }

  /** Signing a fresh pad is refused, whatever the canvas. */
  lemma FreshPadRefused(canvas: Option<Canvas>)
    ensures HandleSign(InitialPad, canvas) == SignatureMissing
    ensures ButtonsDisabled(InitialPad)
  {
  }

  /** An enabled Sign button on a mounted canvas always signs. */
  lemma EnabledSignSigns(p: Pad, canvas: Canvas)
    requires !ButtonsDisabled(p)
    ensures HandleSign(p, Some(canvas)) == Signed(canvas.dataUrl)
  {
  }
}

=== FILE: experience_wall.dfy ===
/** The experience wall's review form: posting a review from the form, the
    form reset, the show/hide toggle, and the difficulty badge text. */
module ExperienceWall {
  import opened Wrappers
  import opened Portal
  import opened Text

  datatype ReviewForm = ReviewForm(companyName: string, rating: int, difficulty: Difficulty, reviewText: string)

  /** The form's initial value: no company, five stars, medium, no text. */
  const BlankForm := ReviewForm("", 5, Medium, "")

  /** The form's contents and whether it is shown. */
  datatype Wall = Wall(form: ReviewForm, showForm: bool)

  const InitialWall := Wall(BlankForm, false)

  /** The stored difficulty string. */
  function DifficultyName(d: Difficulty): string {
    match d
    case Easy => "easy"
    case Medium => "medium"
    case Hard => "hard"
  }

  /** The badge: the stored value with its first letter upper-cased. */
  function DifficultyLabel(d: Difficulty): (badge: string)
    ensures |badge| == |DifficultyName(d)|
    ensures badge[1..] == DifficultyName(d)[1..]
    ensures badge[0] == UpperChar(DifficultyName(d)[0]) && 'A' <= badge[0] <= 'Z'
  {
    Capitalize(DifficultyName(d))
  }

  lemma DifficultyLabels()
    ensures DifficultyLabel(Easy) == "Easy"
    ensures DifficultyLabel(Medium) == "Medium"
    ensures DifficultyLabel(Hard) == "Hard"
  {
    assert DifficultyLabel(Easy) == [UpperChar('e')] + "asy";
    assert DifficultyLabel(Medium) == [UpperChar('m')] + "edium";
    assert DifficultyLabel(Hard) == [UpperChar('h')] + "ard";
  }

  /** Different difficulties get different badges. */
  lemma DifficultyLabelsDistinct(a: Difficulty, b: Difficulty)
    ensures DifficultyLabel(a) == DifficultyLabel(b) <==> a == b
  {
    DifficultyLabels();
  }

  /** The document written for a form by a user. */
  function ReviewOf(form: ReviewForm, studentId: string, now: Timestamp): (r: Review)
    ensures r.companyName == form.companyName && r.rating == form.rating
    ensures r.difficulty == form.difficulty && r.anonymousReviewText == form.reviewText
    ensures r.studentId == studentId && !r.verified && r.createdAt == now
  {
    Review(form.companyName, form.rating, form.difficulty, form.reviewText, studentId, false, now)
  }

  datatype SubmitOutcome = SignInRequired | Posted(reviewId: string) | PostFailed

  datatype Submission = Submission(wall: Wall, reviews: map<string, Review>, outcome: SubmitOutcome)

  /** `handleSubmit`: without a user nothing happens but the prompt to sign
      in; otherwise the review is added under the store's fresh id and the
      form is reset and hidden; a failed write leaves everything as it was. */
  function HandleSubmit(w: Wall, user: Option<UserProfile>, reviews: map<string, Review>,
                        newId: string, now: Timestamp, writeFails: bool): (r: Submission)
    requires newId !in reviews
    ensures user.None? ==> r == Submission(w, reviews, SignInRequired)
    ensures user.Some? && writeFails ==> r == Submission(w, reviews, PostFailed)
    ensures user.Some? && !writeFails ==>
              && r.outcome == Posted(newId)
              && r.reviews == reviews[newId := ReviewOf(w.form, user.value.uid, now)]
              && r.wall == InitialWall
    ensures r.outcome.Posted? <==> user.Some? && !writeFails
    ensures !r.outcome.Posted? ==> r.wall == w && r.reviews == reviews
    ensures reviews.Keys <= r.reviews.Keys && |r.reviews.Keys - reviews.Keys| <= 1
  {
    if user.None? then Submission(w, reviews, SignInRequired)
    else if writeFails then Submission(w, reviews, PostFailed)
    else
      var rs := reviews[newId := ReviewOf(w.form, user.value.uid, now)];
      assert rs.Keys - reviews.Keys == {newId};
      Submission(Wall(BlankForm, false), rs, Posted(newId))
  }

  /** A posted review is the form's content by the user, unverified, and
      the earlier reviews are untouched. */
  lemma PostedReview(w: Wall, user: UserProfile, reviews: map<string, Review>, newId: string, now: Timestamp)
    requires newId !in reviews
    ensures var r := HandleSubmit(w, Some(user), reviews, newId, now, false);
            && newId in r.reviews
            && r.reviews[newId].studentId == user.uid && !r.reviews[newId].verified
            && r.reviews[newId].companyName == w.form.companyName
            && (forall k :: k in reviews ==> k in r.reviews && r.reviews[k] == reviews[k])
  {
  }

  /** The "Share Experience" button. */
  function Toggle(w: Wall): (r: Wall)
    ensures r.showForm == !w.showForm && r.form == w.form
  {
    w.(showForm := !w.showForm)
  }

  lemma ToggleTwice(w: Wall)
    ensures Toggle(Toggle(w)) == w
  {
  }
}

=== FILE: internship_list.dfy ===
/** Applying to a posting from the internship list: a GPA gate, then a year
    gate, then the application write, then a best-effort bump of the
    posting's applicant counter, with the `applying` flag that marks the
    posting whose application is in flight. */
module InternshipList {
  import opened Wrappers
  import opened Portal

  /** Which store calls fail on this attempt: the application write
      (`addDoc`), the posting read (`getDoc`) and the counter write (`updateDoc`). */
  datatype Faults = Faults(addFails: bool, readFails: bool, updateFails: bool)

  const NoFaults := Faults(false, false, false)

  /** What the user is told. */
  datatype Outcome =
    | SignInRequired
    | GpaTooLow(required: real, actual: real)
    | YearNotEligible(allowed: seq<int>)
    | Submitted(applicationId: string)
    | SubmitFailed

  /** The store after the attempt, the outcome, and the values given to
      `setApplying`, in call order. */
  datatype Attempt = Attempt(store: Store, outcome: Outcome, applyingSets: seq<Option<string>>)

  /** The student's GPA, absent read as 0. */
  function StudentGpa(u: UserProfile): real {
    GpaOrZero(u.profile.gpa)
  }

  /** The posting's minimum GPA, absent read as 0. */
  function RequiredGpa(p: Internship): real {
    GpaOrZero(p.criteria.minGpa)
  }

  /** The allowed years, absent read as the empty list. */
  function AllowedYears(p: Internship): seq<int> {
    p.criteria.years.GetOr([])
  }

  predicate FailsGpaGate(u: UserProfile, p: Internship) {
    StudentGpa(u) < RequiredGpa(p)
  }

  /** The year gate rejects only a present, non-zero year missing from a non-empty list. */
  predicate FailsYearGate(u: UserProfile, p: Internship) {
    && |AllowedYears(p)| > 0
    && TruthyInt(u.profile.year)
    && u.profile.year.value !in AllowedYears(p)
  }

  predicate Eligible(u: UserProfile, p: Internship) {
    !FailsGpaGate(u, p) && !FailsYearGate(u, p)
  }

  /** `part` occurs in `s` starting at `k`. */
  predicate OccursAt(s: string, part: string, k: int) {
    0 <= k <= |s| - |part| && s[k..k + |part|] == part
  }

  /** `part` occurs somewhere in `s`. */
  predicate Mentions(s: string, part: string) {
    exists k :: 0 <= k <= |s| && OccursAt(s, part, k)
  }

  /** The middle of a three-part concatenation occurs right after the first part. */
  lemma MiddleOccurs(a: string, m: string, c: string)
    ensures OccursAt(a + m + c, m, |a|)
  {
    assert (a + m + c)[|a|..|a| + |m|] == m;
  }

  /** The application record written for `u` applying to `p`: status
      applied, the student's uid and the posting id, created at the store's
      commit time, and a timeline of one "Applied" event stamped with the
      browser clock whose description names the posting's title and company. */
  function NewApplication(u: UserProfile, p: Internship, now: Timestamp, serverNow: Timestamp): (a: Application)
    ensures a.status == Applied && a.studentId == u.uid && a.internshipId == p.id
    ensures a.createdAt == serverNow && a.internship.None?
    ensures |a.timeline| == 1 && a.timeline[0].event == "Applied" && a.timeline[0].timestamp == now
    ensures a.timeline[0].description.Some?
    ensures Mentions(a.timeline[0].description.value, p.title)
    ensures Mentions(a.timeline[0].description.value, p.company)
  {
    var lead := "Applied to ";
    var mid := " at ";
    var note := lead + p.title + mid + p.company;
    assert note == lead + p.title + (mid + p.company);
    MiddleOccurs(lead, p.title, mid + p.company);
    assert note == (lead + p.title + mid) + p.company + "";
    MiddleOccurs(lead + p.title + mid, p.company, "");
    Application(u.uid, p.id, Applied, [Event(now, "Applied", Some(note))], serverNow, None)
  }

  /** The posting counter after one more applicant: `(applicants || 0) + 1`. */
  function Bumped(p: Internship): (q: Internship)
    ensures q.applicants == Some(p.applicants.GetOr(0) + 1)
    ensures q == p.(applicants := q.applicants)
  {
    p.(applicants := Some(p.applicants.GetOr(0) + 1))
  }

  /** `handleApply(posting)` for the signed-in `user`. `newId` is the id the
      store hands out for the new application document; `now` is the
      browser clock, `serverNow` the store's commit time. */
  function Apply(store: Store, user: Option<UserProfile>, posting: Internship, newId: string,
                 now: Timestamp, serverNow: Timestamp, faults: Faults): (r: Attempt)
    requires newId !in store.applications
    // signed out, or stopped at a gate: nothing written, the flag untouched
    ensures user.None? ==> r == Attempt(store, SignInRequired, [])
    ensures user.Some? && FailsGpaGate(user.value, posting) ==>
              r == Attempt(store, GpaTooLow(RequiredGpa(posting), StudentGpa(user.value)), [])
    ensures user.Some? && !FailsGpaGate(user.value, posting) && FailsYearGate(user.value, posting) ==>
              r == Attempt(store, YearNotEligible(AllowedYears(posting)), [])
    // past both gates: the flag is set to this posting, then cleared
    ensures user.Some? && Eligible(user.value, posting) ==>
              r.applyingSets == [Some(posting.id), None]
    // only the applications and internships collections ever change
    ensures r.store.users == store.users && r.store.reviews == store.reviews
    // the application write: exactly one new document, or none if the write failed
    ensures user.Some? && Eligible(user.value, posting) && !faults.addFails ==>
              && r.store.applications.Keys == store.applications.Keys + {newId}
              && r.store.applications[newId] == NewApplication(user.value, posting, now, serverNow)
              && (forall k :: k in store.applications ==> r.store.applications[k] == store.applications[k])
    ensures !(user.Some? && Eligible(user.value, posting) && !faults.addFails) ==>
              r.store.applications == store.applications
    // the counter: bumped only after a successful application write, on the
    // stored copy of the posting, when that copy exists
    ensures user.Some? && Eligible(user.value, posting) && !faults.addFails && !faults.readFails
            && !faults.updateFails && posting.id in store.internships ==>
              r.store.internships == store.internships[posting.id := Bumped(store.internships[posting.id])]
    ensures !(user.Some? && Eligible(user.value, posting) && !faults.addFails && !faults.readFails
              && !faults.updateFails && posting.id in store.internships) ==>
              r.store.internships == store.internships
    // success is reported only when every store call that ran succeeded
    ensures r.outcome.Submitted? <==>
              && user.Some? && Eligible(user.value, posting) && !faults.addFails && !faults.readFails
              && (posting.id in store.internships ==> !faults.updateFails)
    ensures r.outcome.Submitted? ==> r.outcome.applicationId == newId
    ensures r.outcome == SubmitFailed <==>
              user.Some? && Eligible(user.value, posting) && !r.outcome.Submitted?
  {
    if user.None? then Attempt(store, SignInRequired, [])
    else
      var u := user.value;
      if FailsGpaGate(u, posting) then
        Attempt(store, GpaTooLow(RequiredGpa(posting), StudentGpa(u)), [])
      else if FailsYearGate(u, posting) then
        Attempt(store, YearNotEligible(AllowedYears(posting)), [])
      else
        var flags := [Some(posting.id), None];
        if faults.addFails then Attempt(store, SubmitFailed, flags)
        else
          var written := store.(applications := store.applications[newId := NewApplication(u, posting, now, serverNow)]);
          if faults.readFails then Attempt(written, SubmitFailed, flags)
          else if posting.id !in store.internships then Attempt(written, Submitted(newId), flags)
          else if faults.updateFails then Attempt(written, SubmitFailed, flags)
          else
            var bumped := written.(internships := store.internships[posting.id := Bumped(store.internships[posting.id])]);
            Attempt(bumped, Submitted(newId), flags)
  }

  /** The `applying` flag after a sequence of `setApplying` calls. */
  function FlagAfter(before: Option<string>, sets: seq<Option<string>>): Option<string> {
    if |sets| == 0 then before else sets[|sets| - 1]
  }

  /** Once an attempt has got past the gates, it always ends with the flag
      cleared, whether the writes succeeded or failed; an attempt stopped
      before that leaves the flag as it was. */
  lemma ApplyingFlagCleared(store: Store, user: Option<UserProfile>, posting: Internship, newId: string,
                            now: Timestamp, serverNow: Timestamp, faults: Faults, before: Option<string>)
    requires newId !in store.applications
    ensures var r := Apply(store, user, posting, newId, now, serverNow, faults);
            && (user.Some? && Eligible(user.value, posting) ==> FlagAfter(before, r.applyingSets) == None)
            && (!(user.Some? && Eligible(user.value, posting)) ==> FlagAfter(before, r.applyingSets) == before)
            && (Some(posting.id) in r.applyingSets <==> user.Some? && Eligible(user.value, posting))
  {
  }

  /** The GPA gate rejects exactly when `(gpa || 0) < (minGpa || 0)`, and it
      is checked before the year gate: a GPA rejection is reported whatever
      the year. */
  lemma GpaGate(store: Store, u: UserProfile, posting: Internship, newId: string,
                now: Timestamp, serverNow: Timestamp, faults: Faults)
    requires newId !in store.applications
    ensures var r := Apply(store, Some(u), posting, newId, now, serverNow, faults);
            && (r.outcome.GpaTooLow? <==> GpaOrZero(u.profile.gpa) < GpaOrZero(posting.criteria.minGpa))
            && (r.outcome.GpaTooLow? ==> r.store == store)
  {
  }

  /** The year gate: an absent or zero year, or an empty or absent list,
      never rejects; otherwise a year outside the list does. */
  lemma YearGate(store: Store, u: UserProfile, posting: Internship, newId: string,
                 now: Timestamp, serverNow: Timestamp, faults: Faults)
    requires newId !in store.applications
    requires !FailsGpaGate(u, posting)
    ensures var r := Apply(store, Some(u), posting, newId, now, serverNow, faults);
            && (r.outcome.YearNotEligible? <==>
                  && posting.criteria.years.Some? && |posting.criteria.years.value| > 0
                  && u.profile.year.Some? && u.profile.year.value != 0
                  && u.profile.year.value !in posting.criteria.years.value)
            && (r.outcome.YearNotEligible? ==> r.store == store)
  {
  }

  /** The posting's department list never changes anything. */
  lemma DepartmentIgnored(store: Store, user: Option<UserProfile>, posting: Internship, departments: Option<seq<string>>,
                          newId: string, now: Timestamp, serverNow: Timestamp, faults: Faults)
    requires newId !in store.applications
    ensures Apply(store, user, posting.(criteria := posting.criteria.(departments := departments)),
                  newId, now, serverNow, faults)
         == Apply(store, user, posting, newId, now, serverNow, faults)
  {
  }

  /** The written application: status applied, the student's uid and the
      posting id, and a timeline of one "Applied" event naming the posting's
      title and company. */
  lemma AppliedRecord(store: Store, u: UserProfile, posting: Internship, newId: string,
                      now: Timestamp, serverNow: Timestamp, faults: Faults)
    requires newId !in store.applications
    requires Eligible(u, posting) && !faults.addFails
    ensures var a := Apply(store, Some(u), posting, newId, now, serverNow, faults).store.applications[newId];
            && a.status == Applied && a.studentId == u.uid && a.internshipId == posting.id
            && |a.timeline| == 1 && a.timeline[0].event == "Applied"
            && a.timeline[0].timestamp == now
            && a.timeline[0].description == Some("Applied to " + posting.title + " at " + posting.company)
            && a.internship.None?
  {
  }

  /** Posting with a minimum GPA of 8.0 open to years 3 and 4. */
  function ExamplePosting(): Internship {
    Internship("p1", "SDE Intern", "Acme", 20000, "2026-12-01", Criteria(Some(8.0), Some([3, 4]), None),
               Some(7), Open)
  }

  function ExampleStudent(gpa: real, year: int): UserProfile {
    UserProfile("s1", None, None, Student, Profile(Some(gpa), None, Some(year)))
  }

  /** GPA 7.5 in year 3 is turned away on GPA, with nothing written. */
  lemma ExampleGpaRejection()
    ensures var st := Store(map[], map["p1" := ExamplePosting()], map[], map[]);
            var r := Apply(st, Some(ExampleStudent(7.5, 3)), ExamplePosting(), "a1", "t", "t", NoFaults);
            r.outcome == GpaTooLow(8.0, 7.5) && r.store == st
  {
  }

  /** GPA 8.5 in year 4 is accepted: one application, and the counter goes from 7 to 8. */
  lemma ExampleAccepted()
    ensures var st := Store(map[], map["p1" := ExamplePosting()], map[], map[]);
            var r := Apply(st, Some(ExampleStudent(8.5, 4)), ExamplePosting(), "a1", "t", "t", NoFaults);
            && r.outcome == Submitted("a1")
            && r.store.applications.Keys == {"a1"}
            && r.store.applications["a1"].status == Applied
            && r.store.internships["p1"].applicants == Some(8)
  {
  }
}

=== FILE: portal.dfy ===
/** The records of the placement portal's document store (users,
    internships, applications, reviews) and the JavaScript truthiness rules
    the components apply to their optional fields. */
module Portal {
  import opened Wrappers

  /** An instant as the store or the browser clock reports it; never inspected. */
  type Timestamp = string

  datatype Role = Student | Admin | Tpo

  /** The five status names an application document is meant to carry. */
  const KnownStatusNames: seq<string> :=
    ["applied", "interviewing", "offer_received", "accepted", "rejected"]

  /** A status string that is none of the five known names. */
  type OtherStatusName = s: string | s !in KnownStatusNames witness ""

  /** An application's status. `Other` keeps a document's unexpected status
      string, which the dashboards still group and count by name. */
  datatype Status = Applied | Interviewing | OfferReceived | Accepted | Rejected
                  | Other(name: OtherStatusName)

  /** The string stored in the `status` field. */
  function StatusName(s: Status): string {
    match s
    case Applied => "applied"
    case Interviewing => "interviewing"
    case OfferReceived => "offer_received"
    case Accepted => "accepted"
    case Rejected => "rejected"
    case Other(n) => n
  }

  /** Reading a stored `status` string. */
  function ParseStatus(name: string): Status {
    if name == "applied" then Applied
    else if name == "interviewing" then Interviewing
    else if name == "offer_received" then OfferReceived
    else if name == "accepted" then Accepted
    else if name == "rejected" then Rejected
    else Other(name)
  }

  /** Status names and statuses are in one-to-one correspondence. */
  lemma StatusNameRoundTrip(s: Status, name: string)
    ensures ParseStatus(StatusName(s)) == s
    ensures StatusName(ParseStatus(name)) == name
  {
  }

  predicate IsKnown(s: Status) {
    !s.Other?
  }

  /** The optional academic part of a user document (`profile?`); an absent
      `profile` object reads the same as one with every field absent. */
  datatype Profile = Profile(gpa: Option<real>, department: Option<string>, year: Option<int>)

  const NoProfile := Profile(None, None, None)

  /** A signed-in user as the auth store holds it, and a student row as the
      admin dashboard lists it (`id` is the `uid`). */
  datatype UserProfile = UserProfile(
    uid: string,
    email: Option<string>,
    displayName: Option<string>,
    role: Role,
    profile: Profile)

  /** A stored user document. It may carry its own `uid` field, which wins
      over the document id when the two are merged. */
  datatype UserDoc = UserDoc(
    uidField: Option<string>,
    email: Option<string>,
    displayName: Option<string>,
    role: Role,
    profile: Profile)

  /** A posting's eligibility rules; each absent rule restricts nothing. */
  datatype Criteria = Criteria(
    minGpa: Option<real>,
    years: Option<seq<int>>,
    departments: Option<seq<string>>)

  datatype PostingStatus = Open | Closed

  /** An internship posting (`id` is the document id). */
  datatype Internship = Internship(
    id: string,
    title: string,
    company: string,
    stipend: int,
    deadline: Timestamp,
    criteria: Criteria,
    applicants: Option<int>,
    status: PostingStatus)

  /** One entry of an application's timeline. */
  datatype Event = Event(timestamp: Timestamp, event: string, description: Option<string>)

  /** The posting title and company the applications hook attaches for display. */
  datatype Summary = Summary(title: string, company: string)

  /** An application document. `internship` is only ever filled in on read. */
  datatype Application = Application(
    studentId: string,
    internshipId: string,
    status: Status,
    timeline: seq<Event>,
    createdAt: Timestamp,
    internship: Option<Summary>)

  /** A stored document together with its id, as a query snapshot lists it. */
  datatype Doc = Doc(id: string, data: Application)

  datatype Difficulty = Easy | Medium | Hard

  /** A company-experience review document. */
  datatype Review = Review(
    companyName: string,
    rating: int,
    difficulty: Difficulty,
    anonymousReviewText: string,
    studentId: string,
    verified: bool,
    createdAt: Timestamp)

  /** The document store: one map per collection, keyed by document id. */
  datatype Store = Store(
    users: map<string, UserDoc>,
    internships: map<string, Internship>,
    applications: map<string, Application>,
    reviews: map<string, Review>)

  /** JavaScript truthiness of an optional number: absent and 0 are falsy. */
  predicate TruthyInt(x: Option<int>) {
    x.Some? && x.value != 0
  }

  /** JavaScript truthiness of an optional string: absent and "" are falsy. */
  predicate TruthyText(x: Option<string>) {
    x.Some? && x.value != ""
  }

  /** `x || fallback` for an optional string. */
  function TextOr(x: Option<string>, fallback: string): (r: string)
    ensures TruthyText(x) ==> r == x.value
    ensures !TruthyText(x) ==> r == fallback
  {
    if TruthyText(x) then x.value else fallback
  }

  /** `gpa || 0`: an absent GPA reads as 0 (a GPA of 0 stays 0). */
  function GpaOrZero(gpa: Option<real>): real {
    gpa.GetOr(0.0)
  }
}

=== FILE: resume_analyze.dfy ===
/** The resume-analysis endpoint: the input check, the prompt sent to the
    language model, and the parsing of the model's numbered reply into at
    most three improvements (`text.split(/\d+\./)`, blank pieces dropped,
    the rest trimmed, the first three kept). */
module ResumeAnalyze {
  import opened Wrappers
  import opened Portal
  import opened Seqs
  import opened Text

  // ----- splitting on /\d+\./ -----

  /** The end of the maximal run of digits that starts at `p`. */
  function RunEnd(s: string, p: nat): (e: nat)
    requires p <= |s|
    ensures p <= e <= |s|
    ensures forall k :: p <= k < e ==> IsDigit(s[k])
    ensures e < |s| ==> !IsDigit(s[e])
    decreases |s| - p
  {
    if p < |s| && IsDigit(s[p]) then RunEnd(s, p + 1) else p
  }

  /** The pattern `\d+\.` matches at `p`. Greedy `\d+` backtracks only into
      shorter runs, which are followed by a digit, so a match at `p` is the
      whole digit run starting there followed by a dot. */
  predicate MarkerAt(s: string, p: nat) {
    && p < |s| && IsDigit(s[p])
    && RunEnd(s, p) < |s| && s[RunEnd(s, p)] == '.'
  }

  /** No match of the pattern begins in `s[lo..hi]`. */
  predicate Unmarked(s: string, lo: nat, hi: nat) {
    forall q :: lo <= q < hi ==> !MarkerAt(s, q)
  }

  /** A piece of the text, `s[lo..hi]`. */
  datatype Span = Span(lo: nat, hi: nat)

  /** Between neighbouring pieces lies one whole match: it starts where `a`
      ends and `b` starts right after its dot. */
  predicate Separated(s: string, a: Span, b: Span) {
    MarkerAt(s, a.hi) && b.lo == RunEnd(s, a.hi) + 1
  }

  /** Where the leftmost match at or after `p` begins, or the end of the text. */
  function NextMarker(s: string, p: nat): (q: nat)
    requires p <= |s|
    ensures p <= q <= |s|
    ensures q < |s| ==> MarkerAt(s, q)
    decreases |s| - p
  {
    if p == |s| || MarkerAt(s, p) then p else NextMarker(s, p + 1)
  }

  /** No match begins before the one `NextMarker` finds. */
  lemma {:induction false} NextMarkerUnmarked(s: string, p: nat)
    requires p <= |s|
    ensures Unmarked(s, p, NextMarker(s, p))
    decreases |s| - p
  {
    if p < |s| && !MarkerAt(s, p) {
      NextMarkerUnmarked(s, p + 1);
    }
  }

  /** A match at `q` with none before it, from `p` on, is the one `NextMarker` finds. */
  lemma {:induction false} NextMarkerAt(s: string, p: nat, q: nat)
    requires p <= q <= |s|
    requires Unmarked(s, p, q)
    requires q == |s| || MarkerAt(s, q)
    ensures NextMarker(s, p) == q
    decreases q - p
  {
    if p < q {
      assert !MarkerAt(s, p);
      NextMarkerAt(s, p + 1, q);
    }
  }

  /** The pieces of `split` from a piece that begins at `start`: the
      leftmost match ends the piece, and the next piece starts right after
      the match's dot. */
  function Spans(s: string, start: nat): (r: seq<Span>)
    requires start <= |s|
    ensures |r| >= 1
    ensures r[0].lo == start && r[|r| - 1].hi == |s|
    ensures forall i :: 0 <= i < |r| ==> r[i].lo <= r[i].hi <= |s|
    decreases |s| - start
  {
    var q := NextMarker(s, start);
    if q == |s| then [Span(start, |s|)]
    else
      var rest := Spans(s, RunEnd(s, q) + 1);
      var r := [Span(start, q)] + rest;
      assert forall i :: 1 <= i < |r| ==> r[i] == rest[i - 1];
      r
  }

  /** No match begins inside any of the pieces. */
  predicate PiecesUnmarked(s: string, r: seq<Span>) {
    forall i :: 0 <= i < |r| ==> Unmarked(s, r[i].lo, r[i].hi)
  }

  /** Exactly one whole match lies between neighbouring pieces. */
  predicate AllSeparated(s: string, r: seq<Span>) {
    forall i :: 0 <= i < |r| - 1 ==> Separated(s, r[i], r[i + 1])
  }

  /** The meaning of `split`: the pieces run from `start` to the end of the
      text (the contract of `Spans`), no match begins inside a piece, and
      between neighbours lies exactly one whole match. */
  lemma {:induction false} SpansMeaning(s: string, start: nat)
    requires start <= |s|
    ensures PiecesUnmarked(s, Spans(s, start))
    ensures AllSeparated(s, Spans(s, start))
    decreases |s| - start
  {
    var q := NextMarker(s, start);
    NextMarkerUnmarked(s, start);
    if q == |s| {
      assert Spans(s, start) == [Span(start, |s|)];
    } else {
      var next := RunEnd(s, q) + 1;
      SpansMeaning(s, next);
      assert Spans(s, start) == [Span(start, q)] + Spans(s, next);
      MeaningCons(s, Span(start, q), Spans(s, next));
    }
  }

  /** A match-free piece ended by a match, followed by pieces that start
      right after the match, keeps both properties. */
  lemma MeaningCons(s: string, a: Span, rest: seq<Span>)
    requires |rest| > 0 && Unmarked(s, a.lo, a.hi) && Separated(s, a, rest[0])
    requires PiecesUnmarked(s, rest) && AllSeparated(s, rest)
    ensures PiecesUnmarked(s, [a] + rest) && AllSeparated(s, [a] + rest)
  {
    var r := [a] + rest;
    forall i | 0 <= i < |r| ensures Unmarked(s, r[i].lo, r[i].hi) {
      if i > 0 {
        assert r[i] == rest[i - 1];
      }
    }
    forall i | 0 <= i < |r| - 1 ensures Separated(s, r[i], r[i + 1]) {
      if i > 0 {
        assert r[i] == rest[i - 1] && r[i + 1] == rest[i];
      }
    }
  }

  /** The text of each span. */
  function Pieces(s: string, spans: seq<Span>): (r: seq<string>)
    requires forall i :: 0 <= i < |spans| ==> spans[i].lo <= spans[i].hi <= |s|
    ensures |r| == |spans|
    ensures forall i :: 0 <= i < |spans| ==> r[i] == s[spans[i].lo..spans[i].hi]
  {
    seq(|spans|, i requires 0 <= i < |spans| => s[spans[i].lo..spans[i].hi])
  }

  /** `text.split(/\d+\./)`: at least one piece, none containing a match;
      the first piece opens the text and the last one closes it. */
  function Fragments(s: string): (r: seq<string>)
    ensures |r| >= 1
    ensures AllUnmarked(r)
    ensures |r[0]| <= |s| && r[0] == s[..|r[0]|]
    ensures |r[|r| - 1]| <= |s| && r[|r| - 1] == s[|s| - |r[|r| - 1]|..]
  {
    var spans := Spans(s, 0);
    SplitPiecesUnmarked(s);
    Pieces(s, spans)
  }

  /** Some digit is immediately followed by a dot: `t` contains a match of `\d+\.`. */
  predicate HasMarker(t: string) {
    exists j :: 0 < j < |t| && DigitDot(t, j)
  }

  /** A digit at `j - 1` and a dot at `j`. */
  predicate DigitDot(t: string, j: int) {
    0 < j < |t| && IsDigit(t[j - 1]) && t[j] == '.'
  }

  /** A digit directly before a dot is a match starting at the digit. */
  lemma DigitDotMarker(s: string, q: nat)
    ensures q + 1 < |s| && IsDigit(s[q]) && s[q + 1] == '.' ==> MarkerAt(s, q)
  {
    if q + 1 < |s| && IsDigit(s[q]) && s[q + 1] == '.' {
      assert !IsDigit(s[q + 1]);
    }
  }

  /** A slice of `s` in which no match begins contains no digit-dot pair. */
  lemma UnmarkedSlice(s: string, lo: nat, hi: nat)
    requires lo <= hi <= |s| && Unmarked(s, lo, hi)
    ensures !HasMarker(s[lo..hi])
  {
    var t := s[lo..hi];
    forall j | 0 < j < |t| ensures !DigitDot(t, j) {
      var q := lo + j - 1;
      assert t[j - 1] == s[q] && t[j] == s[q + 1];
      DigitDotMarker(s, q);
    }
  }

  /** No piece of the split contains a match. */
  lemma SplitPiecesUnmarked(s: string)
    ensures AllUnmarked(Pieces(s, Spans(s, 0)))
  {
    var spans := Spans(s, 0);
    SpansMeaning(s, 0);
    forall i | 0 <= i < |spans| ensures !HasMarker(Pieces(s, spans)[i]) {
      assert Unmarked(s, spans[i].lo, spans[i].hi);
      UnmarkedSlice(s, spans[i].lo, spans[i].hi);
    }
  }

  /** Trimming does not create a match. */
  lemma TrimUnmarked(t: string)
    requires !HasMarker(t)
    ensures !HasMarker(Trim(t))
  {
    var r := Trim(t);
    var i :| 0 <= i <= |t| - |r| && t[i..i + |r|] == r && IsBlank(t[..i]) && IsBlank(t[i + |r|..]);
    forall j | 0 < j < |r| ensures !DigitDot(r, j) {
      assert r[j - 1] == t[i + j - 1] && r[j] == t[i + j];
      assert !DigitDot(t, i + j);
    }
  }

  // ----- splitting a numbered list -----

  /** A list marker: one or more digits and a dot. */
  predicate IsMarker(m: string) {
    |m| >= 2 && (forall k :: 0 <= k < |m| - 1 ==> IsDigit(m[k])) && m[|m| - 1] == '.'
  }

  /** An item that can stand before a marker: no match inside, and no digit
      at its end that the marker's digit run would swallow. */
  predicate EndsPlain(t: string) {
    |t| == 0 || !IsDigit(t[|t| - 1])
  }

  /** `items[0] + markers[0] + items[1] + ... + items[n]`. */
  function Interleave(items: seq<string>, markers: seq<string>): string
    requires |items| == |markers| + 1
    decreases |markers|
  {
    if |markers| == 0 then items[0] else items[0] + markers[0] + Interleave(items[1..], markers[1..])
  }

  /** No match begins inside a marker-free item that is followed by the end
      of the text or by a non-digit. */
  lemma ItemUnmarked(s: string, start: nat, e: nat)
    requires start <= e <= |s|
    requires !HasMarker(s[start..e])
    requires e == |s| || !IsDigit(s[e]) || EndsPlain(s[start..e])
    requires e < |s| ==> s[e] != '.' || EndsPlain(s[start..e])
    ensures Unmarked(s, start, e)
  {
    var t := s[start..e];
    forall q | start <= q < e ensures !MarkerAt(s, q) {
      if IsDigit(s[q]) {
        var r := RunEnd(s, q);
        assert t[e - 1 - start] == s[e - 1];
        if r < e {
          var j := r - start;
          assert t[j - 1] == s[r - 1] && t[j] == s[r];
          assert !DigitDot(t, j);
        }
      }
    }
  }

  /** A marker written at `e` is a match there, and its digit run ends at its dot. */
  lemma MarkerStep(s: string, e: nat, m: string)
    requires e + |m| <= |s| && s[e..e + |m|] == m && IsMarker(m)
    ensures MarkerAt(s, e) && RunEnd(s, e) == e + |m| - 1
  {
    assert forall k :: 0 <= k < |m| ==> s[e + k] == m[k];
    RunEndAt(s, e, e + |m| - 1);
  }

  /** The first piece from `start` ends at the first match, at `e`. */
  lemma SpansStep(s: string, start: nat, e: nat, next: nat)
    requires start <= e < |s| && Unmarked(s, start, e) && MarkerAt(s, e)
    requires next == RunEnd(s, e) + 1
    ensures Spans(s, start) == [Span(start, e)] + Spans(s, next)
  {
    NextMarkerAt(s, start, e);
  }

  /** `items` interleaved with `markers` reads as a numbered list: one more
      item than markers, no match inside an item, every marker a digit run
      and a dot, and no item before a marker ending in a digit. */
  predicate NumberedList(items: seq<string>, markers: seq<string>) {
    && |items| == |markers| + 1
    && (forall i :: 0 <= i < |items| ==> !HasMarker(items[i]))
    && (forall i :: 0 <= i < |markers| ==> EndsPlain(items[i]) && IsMarker(markers[i]))
  }

  /** A numbered list after its first item and marker is again one. */
  lemma NumberedListTail(items: seq<string>, markers: seq<string>)
    requires NumberedList(items, markers) && |markers| > 0
    ensures NumberedList(items[1..], markers[1..])
    ensures !HasMarker(items[0]) && EndsPlain(items[0]) && IsMarker(markers[0])
  {
    assert forall i :: 0 <= i < |items| - 1 ==> items[1..][i] == items[i + 1];
    assert forall i :: 0 <= i < |markers| - 1 ==> markers[1..][i] == markers[i + 1];
  }

  /** The spans from `start`, where the rest of the text is a numbered list,
      cut out exactly its items. */
  lemma {:induction false} InterleaveSpans(s: string, start: nat, items: seq<string>, markers: seq<string>)
    requires NumberedList(items, markers)
    requires start <= |s| && s[start..] == Interleave(items, markers)
    ensures Pieces(s, Spans(s, start)) == items
    decreases |markers|
  {
    if |markers| == 0 {
      LastItemSpans(s, start);
    } else {
      var e := start + |items[0]|;
      var next := e + |markers[0]|;
      NumberedListTail(items, markers);
      ItemThenMarker(s, start, items, markers, e, next);
      InterleaveSpans(s, next, items[1..], markers[1..]);
      PiecesCons(s, Span(start, e), Spans(s, next));
      assert [items[0]] + items[1..] == items;
    }
  }

  /** The first item of a numbered list followed by its marker is the first
      piece; the rest of the list starts after the marker. */
  lemma ItemThenMarker(s: string, start: nat, items: seq<string>, markers: seq<string>, e: nat, next: nat)
    requires |items| == |markers| + 1 && |markers| > 0
    requires start <= |s| && s[start..] == Interleave(items, markers)
    requires !HasMarker(items[0]) && EndsPlain(items[0]) && IsMarker(markers[0])
    requires e == start + |items[0]| && next == e + |markers[0]|
    ensures next <= |s| && s[start..e] == items[0]
    ensures s[next..] == Interleave(items[1..], markers[1..])
    ensures Spans(s, start) == [Span(start, e)] + Spans(s, next)
  {
    InterleaveHead(s, start, items, markers, e, next);
    MarkerStep(s, e, markers[0]);
    ItemUnmarked(s, start, e);
    SpansStep(s, start, e, next);
  }

  /** Where the first item and the first marker of a numbered list lie. */
  lemma InterleaveHead(s: string, start: nat, items: seq<string>, markers: seq<string>, e: nat, next: nat)
    requires |items| == |markers| + 1 && |markers| > 0
    requires start <= |s| && s[start..] == Interleave(items, markers)
    requires e == start + |items[0]| && next == e + |markers[0]|
    ensures start <= e <= next <= |s|
    ensures s[start..e] == items[0] && s[e..next] == markers[0]
    ensures s[next..] == Interleave(items[1..], markers[1..])
  {
    var item, m, rest := items[0], markers[0], Interleave(items[1..], markers[1..]);
    assert s[start..] == item + m + rest;
    assert s[start..e] == (item + m + rest)[..|item|];
    assert s[e..next] == (item + m + rest)[|item|..|item| + |m|];
    assert s[next..] == (item + m + rest)[|item| + |m|..];
  }

  /** A marker-free rest of the text is one last piece. */
  lemma LastItemSpans(s: string, start: nat)
    requires start <= |s| && !HasMarker(s[start..])
    ensures Pieces(s, Spans(s, start)) == [s[start..]]
  {
    assert s[start..|s|] == s[start..];
    ItemUnmarked(s, start, |s|);
    NextMarkerAt(s, start, |s|);
  }

  lemma PiecesCons(s: string, a: Span, spans: seq<Span>)
    requires a.lo <= a.hi <= |s|
    requires forall i :: 0 <= i < |spans| ==> spans[i].lo <= spans[i].hi <= |s|
    ensures Pieces(s, [a] + spans) == [s[a.lo..a.hi]] + Pieces(s, spans)
  {
  }

  /** The digit run from `p` ends at the first non-digit. */
  lemma {:induction false} RunEndAt(s: string, p: nat, e: nat)
    requires p <= e < |s|
    requires forall k :: p <= k < e ==> IsDigit(s[k])
    requires !IsDigit(s[e])
    ensures RunEnd(s, p) == e
    decreases e - p
  {
    if p < e {
      RunEndAt(s, p + 1, e);
    }
  }

  /** Splitting a numbered list gives back its items: the text before the
      first marker, then the text after each marker. */
  lemma NumberedListSplits(items: seq<string>, markers: seq<string>)
    requires NumberedList(items, markers)
    ensures Fragments(Interleave(items, markers)) == items
  {
    var s := Interleave(items, markers);
    assert s[0..] == s;
    InterleaveSpans(s, 0, items, markers);
  }

  // ----- cleaning the pieces -----

  /** Each piece trimmed, blank ones included. */
  function TrimAll(pieces: seq<string>): (r: seq<string>)
    ensures |r| == |pieces|
    ensures forall i :: 0 <= i < |pieces| ==> r[i] == Trim(pieces[i])
    decreases |pieces|
  {
    if |pieces| == 0 then [] else [Trim(pieces[0])] + TrimAll(pieces[1..])
  }

  /** A piece with no whitespace at either end and at least one character. */
  predicate IsCleanItem(t: string) {
    |t| > 0 && !IsSpace(t[0]) && !IsSpace(t[|t| - 1])
  }

  predicate AllUnmarked(ts: seq<string>) {
    forall i :: 0 <= i < |ts| ==> !HasMarker(ts[i])
  }

  /** `r` is `all` with its empty strings dropped: an order-keeping
      subsequence that keeps every non-empty string as often as it occurs,
      and no empty one. */
  ghost predicate DropsBlanks(r: seq<string>, all: seq<string>) {
    && IsSubsequence(r, all)
    && "" !in r
    && (forall t :: t != "" ==> multiset(r)[t] == multiset(all)[t])
  }

  /** Dropping the empty strings of a list with one more string in front. */
  lemma DropsBlanksCons(h: string, rest: seq<string>, tail: seq<string>)
    requires DropsBlanks(rest, tail)
    ensures DropsBlanks(if h == "" then rest else [h] + rest, [h] + tail)
  {
    var all := [h] + tail;
    assert all[1..] == tail;
    assert multiset(all) == multiset([h]) + multiset(tail);
    if h != "" {
      var r := [h] + rest;
      assert r[1..] == rest;
      assert multiset(r) == multiset([h]) + multiset(rest);
    }
  }

  /** Every string is non-empty with no whitespace at either end. */
  predicate AllClean(ts: seq<string>) {
    forall i :: 0 <= i < |ts| ==> IsCleanItem(ts[i])
  }

  /** A clean item in front of clean, marker-free items keeps both properties. */
  lemma CleanCons(h: string, rest: seq<string>)
    requires IsCleanItem(h) && AllClean(rest)
    ensures AllClean([h] + rest)
    ensures !HasMarker(h) && AllUnmarked(rest) ==> AllUnmarked([h] + rest)
  {
    var r := [h] + rest;
    assert forall i :: 1 <= i < |r| ==> r[i] == rest[i - 1];
  }

  /** The first piece of marker-free pieces trims to a marker-free item, and the rest stay marker-free. */
  lemma UnmarkedHead(pieces: seq<string>)
    requires |pieces| > 0 && AllUnmarked(pieces)
    ensures AllUnmarked(pieces[1..]) && !HasMarker(Trim(pieces[0]))
  {
    assert !HasMarker(pieces[0]);
    TrimUnmarked(pieces[0]);
    assert forall i :: 0 <= i < |pieces| - 1 ==> pieces[1..][i] == pieces[i + 1];
  }

  /** `.filter(item => item.trim()).map(item => item.trim())`: the trimmed
      pieces in their order, each non-blank one kept as often as it occurs
      and every blank one dropped. */
  function Cleaned(pieces: seq<string>): (r: seq<string>)
    ensures DropsBlanks(r, TrimAll(pieces))
    ensures AllClean(r)
    ensures AllUnmarked(pieces) ==> AllUnmarked(r)
    decreases |pieces|
  {
    if |pieces| == 0 then []
    else
      var rest := Cleaned(pieces[1..]);
      var head := Trim(pieces[0]);
      assert TrimAll(pieces) == [head] + TrimAll(pieces[1..]);
      DropsBlanksCons(head, rest, TrimAll(pieces[1..]));
      assert AllUnmarked(pieces) ==> AllUnmarked(pieces[1..]) && !HasMarker(head) by {
        if AllUnmarked(pieces) {
          UnmarkedHead(pieces);
        }
      }
      if head == "" then rest
      else
        CleanCons(head, rest);
        [head] + rest
  }

  /** The first `n` elements, or all of them when there are fewer. */
  function Take<T>(items: seq<T>, n: nat): (r: seq<T>)
    ensures |r| == if |items| < n then |items| else n
    ensures r == items[..|r|]
  {
    if |items| <= n then items else items[..n]
  }

  /** `Take` with its contract restated for a given list, so that callers
      see only the length and the prefix and none of the list's origins. */
  function TakeOf(items: seq<string>, n: nat): (r: seq<string>)
    ensures |r| == if |items| < n then |items| else n
    ensures r == items[..|r|]
  {
    Take(items, n)
  }

  /** Every item is clean and carries no numbered-list marker. */
  predicate AllReplyItems(ts: seq<string>) {
    forall i :: 0 <= i < |ts| ==> IsCleanItem(ts[i]) && !HasMarker(ts[i])
  }

  /** The cleaned pieces of any text are clean and carry no marker. */
  lemma CleanedFragments(text: string)
    ensures AllReplyItems(Cleaned(Fragments(text)))
  {
  }

  /** The improvements parsed from the model's reply: at most three, the
      first of the cleaned pieces in order, with no padding. */
  function ParseImprovements(text: string): (r: seq<string>)
    ensures |r| <= 3
    ensures |r| == if |Cleaned(Fragments(text))| < 3 then |Cleaned(Fragments(text))| else 3
    ensures r == Cleaned(Fragments(text))[..|r|]
  {
    TakeOf(Cleaned(Fragments(text)), 3)
  }

  /** Every parsed improvement is non-empty, has no whitespace at its ends
      and contains no numbered-list marker. */
  lemma ParsedItemsClean(text: string)
    ensures AllReplyItems(ParseImprovements(text))
  {
    CleanedFragments(text);
    TakeReplyItems(Cleaned(Fragments(text)), 3);
  }

  /** A prefix of clean, marker-free items is clean and marker-free. */
  lemma TakeReplyItems(items: seq<string>, n: nat)
    requires AllReplyItems(items)
    ensures AllReplyItems(Take(items, n))
  {
    var r := Take(items, n);
    assert forall i :: 0 <= i < |r| ==> r[i] == items[i];
  }

  /** Text with no numbered marker and some non-space character parses to
      one item: the whole text trimmed. */
  lemma UnnumberedText(text: string)
    requires !HasMarker(text)
    requires !IsBlank(text)
    ensures ParseImprovements(text) == [Trim(text)]
  {
    NumberedListSplits([text], []);
    assert Cleaned([text][1..]) == [];
  }

  /** Cleaning a piece and then the rest. */
  lemma CleanedCons(p: string, rest: seq<string>)
    ensures Cleaned([p] + rest) == if Trim(p) == "" then Cleaned(rest) else [Trim(p)] + Cleaned(rest)
  {
    assert ([p] + rest)[1..] == rest;
  }

  /** When no piece is blank, cleaning only trims. */
  lemma {:induction false} CleanedNoBlank(pieces: seq<string>)
    requires forall i :: 0 <= i < |pieces| ==> Trim(pieces[i]) != ""
    ensures Cleaned(pieces) == TrimAll(pieces)
    decreases |pieces|
  {
    if |pieces| > 0 {
      CleanedNoBlank(pieces[1..]);
      CleanedCons(pieces[0], pieces[1..]);
      assert [pieces[0]] + pieces[1..] == pieces;
      assert TrimAll(pieces) == [Trim(pieces[0])] + TrimAll(pieces[1..]);
    }
  }

  // ----- replies in the requested format -----

  /** An item as the model writes it after its marker: a space before, and
      a line break after unless it is the last one. */
  function Padded(item: string, last: bool): string {
    " " + item + (if last then "" else "\n")
  }

  /** The list marker for item `k`: its decimal digits and a dot. */
  function Marker(k: nat): (m: string)
    ensures IsMarker(m)
    ensures DecimalValue(m[..|m| - 1]) == k
  {
    var m := NatText(k) + ".";
    assert m[..|m| - 1] == NatText(k);
    NatTextValue(k);
    m
  }

  /** The list markers "1.", "2.", ..., "n.". */
  function Markers(n: nat): (r: seq<string>)
    ensures |r| == n
    ensures forall i :: 0 <= i < n ==> IsMarker(r[i]) && DecimalValue(r[i][..|r[i]| - 1]) == i + 1
  {
    seq(n, i requires 0 <= i => Marker(i + 1))
  }

  /** Each item padded. */
  function PaddedAll(items: seq<string>): (r: seq<string>)
    ensures |r| == |items|
    ensures forall i :: 0 <= i < |items| ==> r[i] == Padded(items[i], i == |items| - 1)
  {
    seq(|items|, i requires 0 <= i < |items| => Padded(items[i], i == |items| - 1))
  }

  /** A reply in the format the prompt asks for: "1. item\n2. item\n...\nn. item". */
  function ListReply(items: seq<string>): string {
    Interleave([""] + PaddedAll(items), Markers(|items|))
  }

  /** An item the model may write: no whitespace at its ends and no numbered
      marker inside. */
  predicate IsReplyItem(t: string) {
    IsCleanItem(t) && !HasMarker(t)
  }

  /** Padding adds no marker: a space is no digit and a line break no dot. */
  lemma PaddedUnmarked(item: string, last: bool)
    requires IsReplyItem(item)
    ensures !HasMarker(Padded(item, last))
    ensures !last ==> EndsPlain(Padded(item, last))
  {
    var t := Padded(item, last);
    forall j | 0 < j < |t| ensures !DigitDot(t, j) {
      if 1 < j <= |item| {
        assert t[j - 1] == item[j - 2] && t[j] == item[j - 1];
        assert !DigitDot(item, j - 1);
      }
    }
  }

  /** A padded item trims back to the item. */
  lemma PaddedTrims(item: string, last: bool)
    requires IsCleanItem(item)
    ensures Trim(Padded(item, last)) == item
  {
    var post := if last then "" else "\n";
    assert IsBlank(" ") && IsBlank(post);
    TrimPadded(" ", item, post);
  }

  /** A reply in the requested format splits into an empty piece before
      "1." and then the padded items. */
  lemma ListReplyFragments(items: seq<string>)
    requires forall i :: 0 <= i < |items| ==> IsReplyItem(items[i])
    ensures Fragments(ListReply(items)) == [""] + PaddedAll(items)
  {
    var padded := PaddedAll(items);
    var pieces := [""] + padded;
    forall i | 0 <= i < |items| ensures !HasMarker(padded[i]) && (i < |items| - 1 ==> EndsPlain(padded[i])) {
      PaddedUnmarked(items[i], i == |items| - 1);
    }
    assert forall i :: 1 <= i < |pieces| ==> pieces[i] == padded[i - 1];
    NumberedListSplits(pieces, Markers(|items|));
  }

  /** Cleaning those pieces gives back the items. */
  lemma ListReplyCleaned(items: seq<string>)
    requires forall i :: 0 <= i < |items| ==> IsCleanItem(items[i])
    ensures Cleaned([""] + PaddedAll(items)) == items
  {
    var padded := PaddedAll(items);
    forall i | 0 <= i < |items| ensures Trim(padded[i]) == items[i] {
      PaddedTrims(items[i], i == |items| - 1);
    }
    CleanedNoBlank(padded);
    CleanedCons("", padded);
    assert Trim("") == "";
  }

  /** A reply in the requested format parses back to its items, the first
      three of them when there are more. */
  lemma ListReplyRoundTrip(items: seq<string>)
    requires forall i :: 0 <= i < |items| ==> IsReplyItem(items[i])
    ensures ParseImprovements(ListReply(items)) == if |items| <= 3 then items else items[..3]
  {
    ListReplyFragments(items);
    ListReplyCleaned(items);
  }

  /** The first three markers. */
  lemma MarkersThree()
    ensures Markers(3) == ["1.", "2.", "3."]
  {
    var m := Markers(3);
    SingleDigitMarker(1);
    SingleDigitMarker(2);
    SingleDigitMarker(3);
    assert m[0] == Marker(1) && m[1] == Marker(2) && m[2] == Marker(3);
  }

  /** The marker of a single digit is that digit and a dot. */
  lemma SingleDigitMarker(d: nat)
    requires d < 10
    ensures Marker(d) == [DigitChar(d), '.']
  {
    assert NatText(d) == [DigitChar(d)];
  }

  /** The reply text written out for three items. */
  lemma ThreeItemReply(a: string, b: string, c: string)
    ensures ListReply([a, b, c]) == "1. " + a + "\n2. " + b + "\n3. " + c
  {
    MarkersThree();
    PaddedThree(a, b, c);
    InterleaveFour("", " " + a + "\n", " " + b + "\n", " " + c, "1.", "2.", "3.");
    assert [""] + [" " + a + "\n", " " + b + "\n", " " + c] == ["", " " + a + "\n", " " + b + "\n", " " + c];
    assert "1." + " " == "1. " && "\n" + "2." + " " == "\n2. " && "\n" + "3." + " " == "\n3. ";
  }

  /** Three items padded: line breaks after the first two only. */
  lemma PaddedThree(a: string, b: string, c: string)
    ensures PaddedAll([a, b, c]) == [" " + a + "\n", " " + b + "\n", " " + c]
  {
    var padded := PaddedAll([a, b, c]);
    assert padded[0] == Padded(a, false) == " " + a + "\n";
    assert padded[1] == Padded(b, false) == " " + b + "\n";
    assert padded[2] == Padded(c, true) == " " + c;
  }

  /** Four pieces interleaved with three markers, written out. */
  lemma InterleaveFour(p0: string, p1: string, p2: string, p3: string, m0: string, m1: string, m2: string)
    ensures Interleave([p0, p1, p2, p3], [m0, m1, m2]) == p0 + m0 + p1 + m1 + p2 + m2 + p3
  {
    assert Interleave([p3], []) == p3;
    assert Interleave([p2, p3], [m2]) == p2 + m2 + p3 by {
      assert [p2, p3][1..] == [p3] && [m2][1..] == [];
    }
    assert Interleave([p1, p2, p3], [m1, m2]) == p1 + m1 + (p2 + m2 + p3) by {
      assert [p1, p2, p3][1..] == [p2, p3] && [m1, m2][1..] == [m2];
    }
    assert Interleave([p0, p1, p2, p3], [m0, m1, m2]) == p0 + m0 + (p1 + m1 + (p2 + m2 + p3)) by {
      assert [p0, p1, p2, p3][1..] == [p1, p2, p3] && [m0, m1, m2][1..] == [m1, m2];
    }
  }

  /** The reply "1. Add metrics\n2. Fix formatting\n3. Tailor keywords"
      parses to its three items. */
  lemma NumberedReplyExample()
    ensures ParseImprovements("1. " + "Add metrics" + "\n2. " + "Fix formatting" + "\n3. " + "Tailor keywords")
         == ["Add metrics", "Fix formatting", "Tailor keywords"]
  {
    var items := ["Add metrics", "Fix formatting", "Tailor keywords"];
    assert IsReplyItem(items[0]) && IsReplyItem(items[1]) && IsReplyItem(items[2]);
    ListReplyRoundTrip(items);
    ThreeItemReply(items[0], items[1], items[2]);
  }

  // ----- the prompt -----

  const PromptHead: string :=
    "You are a professional resume reviewer. Analyze the following resume and provide exactly 3 specific, actionable improvements.\n\n"

  const JobHeading: string := "Job Description:\n"

  const ResumeHeading: string := "Resume Text:\n"

  const PromptTail: string :=
    "\n\n\n\nProvide exactly 3 improvements in this format:\n1. [Improvement 1]\n2. [Improvement 2]\n3. [Improvement 3]\n\nBe specific and actionable. Focus on content, keywords, and alignment with the job description if provided."

  /** The job-description block: present only when a job description was
      given and is not the empty string. */
  function JobBlock(jobDescription: Option<string>): (b: string)
    ensures TruthyText(jobDescription) ==> |b| >= |JobHeading| && b[..|JobHeading|] == JobHeading
    ensures !TruthyText(jobDescription) ==> b == ""
  {
    if TruthyText(jobDescription) then
      PrefixOfConcat(JobHeading, jobDescription.value + "\n\n");
      JobHeading + jobDescription.value + "\n\n"
    else ""
  }

  /** The prompt: the instructions, the job-description block, then the
      resume text and the required format. */
  function Prompt(resumeText: string, jobDescription: Option<string>): (p: string)
    ensures |p| >= |PromptHead| && p[..|PromptHead|] == PromptHead
  {
    var rest := JobBlock(jobDescription) + ResumeHeading + resumeText + PromptTail;
    PrefixOfConcat(PromptHead, rest);
    PromptHead + rest
  }

  /** A string is a prefix of itself followed by anything. */
  lemma PrefixOfConcat(a: string, b: string)
    ensures (a + b)[..|a|] == a
  {
  }

  /** The resume text sits in the prompt right after the resume heading,
      which follows the job-description block. */
  lemma ResumeInPrompt(resumeText: string, jobDescription: Option<string>)
    ensures var p := Prompt(resumeText, jobDescription);
            var at := |PromptHead| + |JobBlock(jobDescription)| + |ResumeHeading|;
            at + |resumeText| <= |p| && p[at..at + |resumeText|] == resumeText
  {
    var b := JobBlock(jobDescription);
    var p := PromptHead + b + ResumeHeading + resumeText + PromptTail;
    var at := |PromptHead| + |b| + |ResumeHeading|;
    assert p == (PromptHead + b + ResumeHeading) + resumeText + PromptTail;
    SliceOfConcat(PromptHead + b + ResumeHeading, resumeText, PromptTail);
  }

  /** The middle part of a three-part concatenation. */
  lemma SliceOfConcat(a: string, m: string, c: string)
    ensures (a + m + c)[|a|..|a| + |m|] == m
  {
  }

  /** The prompt carries a "Job Description:" block right after the
      instructions exactly when the job description is truthy. */
  lemma JobBlockIffTruthy(resumeText: string, jobDescription: Option<string>)
    ensures var p := Prompt(resumeText, jobDescription);
            |p| >= |PromptHead| + |JobHeading| &&
            (p[|PromptHead|..|PromptHead| + |JobHeading|] == JobHeading <==> TruthyText(jobDescription))
  {
    var b := JobBlock(jobDescription);
    var rest := b + ResumeHeading + resumeText + PromptTail;
    var p := PromptHead + rest;
    var n := |PromptHead|;
    assert p[n..n + |JobHeading|] == rest[..|JobHeading|];
    if TruthyText(jobDescription) {
      assert rest[..|JobHeading|] == b[..|JobHeading|];
    } else {
      assert rest[..|JobHeading|][0] == ResumeHeading[0];
    }
  }

  // ----- the endpoint -----

  /** The request fields; a field missing from the JSON body is absent. */
  datatype Body = Body(resumeText: Option<string>, jobDescription: Option<string>)

  /** `request.json()`: a parsed body, or the parser's error message. */
  datatype Request = Json(body: Body) | Malformed(message: string)

  /** What the language model gives back for the prompt: its text, or the error it raised. */
  datatype Reply = Text(text: string) | Raised(message: string)

  datatype Response =
    | Improvements(items: seq<string>)
    | Failure(error: string, details: Option<string>)

  /** The prompt sent to the model (absent when it is not called), the HTTP
      status and the JSON response. */
  datatype Exchange = Exchange(prompt: Option<string>, status: int, response: Response)

  /** `POST /api/resume-analyze`. */
  function Post(request: Request, reply: Reply): (x: Exchange)
    ensures request.Malformed? ==>
              x == Exchange(None, 500, Failure("Failed to analyze resume", Some(request.message)))
    ensures request.Json? && !TruthyText(request.body.resumeText) ==>
              x == Exchange(None, 400, Failure("Resume text is required", None))
    ensures request.Json? && TruthyText(request.body.resumeText) ==>
              x.prompt == Some(Prompt(request.body.resumeText.value, request.body.jobDescription))
    ensures x.status == 200 <==> x.response.Improvements?
    ensures x.status == 200 <==> request.Json? && TruthyText(request.body.resumeText) && reply.Text?
    ensures x.response.Improvements? ==>
              x.response.items == ParseImprovements(reply.text) && |x.response.items| <= 3
    ensures reply.Raised? && request.Json? && TruthyText(request.body.resumeText) ==>
              x.status == 500 && x.response == Failure("Failed to analyze resume", Some(reply.message))
  {
    match request
    case Malformed(m) => Exchange(None, 500, Failure("Failed to analyze resume", Some(m)))
    case Json(body) =>
      if !TruthyText(body.resumeText) then Exchange(None, 400, Failure("Resume text is required", None))
      else
        var prompt := Prompt(body.resumeText.value, body.jobDescription);
        match reply
        case Raised(m) => Exchange(Some(prompt), 500, Failure("Failed to analyze resume", Some(m)))
        case Text(t) => Exchange(Some(prompt), 200, Improvements(ParseImprovements(t)))
  }
}

=== FILE: routing.dfy ===
/** Access control and the landing-page redirect: what a protected page
    renders and where its effect sends the browser, as functions of the
    auth store's `loading` flag and user, and the allowed roles. */
module Routing {
  import opened Wrappers
  import opened Portal

  /** What a protected page renders. */
  datatype Guarded = Spinner | Nothing | Children

  /** The user may see the page: signed in, and either no role list was
      given or the list holds the user's role. A given list, even an empty
      one, is truthy and so restricts. */
  predicate Admitted(user: Option<UserProfile>, allowedRoles: Option<seq<Role>>) {
    user.Some? && (allowedRoles.None? || user.value.role in allowedRoles.value)
  }

  /** The protected page's effect: after loading, a signed-out user and a
      user whose role is not allowed are both sent to "/". */
  function GuardRedirect(loading: bool, user: Option<UserProfile>, allowedRoles: Option<seq<Role>>): (to: Option<string>)
    ensures loading ==> to.None?
    ensures to.Some? ==> to.value == "/"
    ensures !loading && user.None? ==> to == Some("/")
  {
    if !loading then
      if user.None? then Some("/")
      else if allowedRoles.Some? && user.value.role !in allowedRoles.value then Some("/")
      else None
    else None
  }

  /** The protected page's render: a spinner while loading, nothing for a
      user who may not see the page, the children otherwise. */
  function GuardView(loading: bool, user: Option<UserProfile>, allowedRoles: Option<seq<Role>>): (v: Guarded)
    ensures v == Spinner <==> loading
    ensures v == Children <==> !loading && Admitted(user, allowedRoles)
  {
    if loading then Spinner
    else if user.None? || (allowedRoles.Some? && user.value.role !in allowedRoles.value) then Nothing
    else Children
  }

  /** The effect and the render agree: once loading is over, the browser is
      redirected exactly when the children are not shown. */
  lemma RedirectIffHidden(user: Option<UserProfile>, allowedRoles: Option<seq<Role>>)
    ensures GuardRedirect(false, user, allowedRoles).Some? <==> GuardView(false, user, allowedRoles) != Children
    ensures GuardRedirect(false, user, allowedRoles).Some? <==> !Admitted(user, allowedRoles)
  {
  }

  /** While loading, the children never show and nobody is redirected. */
  lemma LoadingHoldsStill(user: Option<UserProfile>, allowedRoles: Option<seq<Role>>)
    ensures GuardView(true, user, allowedRoles) == Spinner
    ensures GuardRedirect(true, user, allowedRoles) == None
  {
  }

  /** Without a role list, every signed-in user is admitted. */
  lemma NoRolesAdmitsAll(user: UserProfile)
    ensures GuardView(false, Some(user), None) == Children
    ensures GuardRedirect(false, Some(user), None) == None
  {
  }

  /** An empty role list admits no one. */
  lemma EmptyRolesAdmitNone(user: Option<UserProfile>)
    ensures GuardView(false, user, Some([])) == Nothing
    ensures GuardRedirect(false, user, Some([])) == Some("/")
  {
  }

  /** The student dashboard's guard: `allowedRoles={["student"]}`. */
  const DashboardRoles: Option<seq<Role>> := Some([Student])

  /** The dashboard turns away admin and placement-officer users. */
  lemma DashboardRejectsStaff(user: UserProfile)
    requires user.role != Student
    ensures GuardView(false, Some(user), DashboardRoles) == Nothing
    ensures GuardRedirect(false, Some(user), DashboardRoles) == Some("/")
  {
  }

  /** ... and lets students in. */
  lemma DashboardAdmitsStudents(user: UserProfile)
    requires user.role == Student
    ensures GuardView(false, Some(user), DashboardRoles) == Children
  {
  }

  // ----- the landing page -----

  /** What the landing page renders. */
  datatype Landing = LandingSpinner | LoginPage | Blank

  /** The landing page's effect: a signed-in user is sent on by role. */
  function HomeRedirect(loading: bool, user: Option<UserProfile>): (to: Option<string>)
    ensures loading || user.None? <==> to.None?
    ensures to == Some("/admin") <==> !loading && user.Some? && (user.value.role == Admin || user.value.role == Tpo)
    ensures to == Some("/dashboard") <==> !loading && user.Some? && user.value.role == Student
  {
    assert "/admin" != "/dashboard" by { assert "/admin"[1] != "/dashboard"[1]; }
    if !loading && user.Some? then
      if user.value.role == Admin || user.value.role == Tpo then Some("/admin")
      else assert user.value.role == Student; Some("/dashboard")
    else None
  }

  /** The landing page's render: a spinner while loading, the login page
      when signed out, nothing while the redirect takes over. */
  function HomeView(loading: bool, user: Option<UserProfile>): (v: Landing)
    ensures v == LandingSpinner <==> loading
    ensures v == LoginPage <==> !loading && user.None?
  {
    if loading then LandingSpinner
    else if user.None? then LoginPage
    else Blank
  }

  /** Every signed-in user is sent to exactly one of the two areas. */
  lemma HomeSendsSomewhere(user: UserProfile)
    ensures HomeRedirect(false, Some(user)) in {Some("/admin"), Some("/dashboard")}
  {
  }

  /** The login page shows exactly when no redirect is due after loading. */
  lemma LoginIffNoRedirect(user: Option<UserProfile>)
    ensures HomeView(false, user) == LoginPage <==> HomeRedirect(false, user).None?
  {
  }

  /** A student sent on from the landing page is let into the dashboard,
      and staff sent on are not sent there. */
  lemma LandingMatchesDashboardGuard(user: UserProfile)
    ensures HomeRedirect(false, Some(user)) == Some("/dashboard") <==>
            GuardView(false, Some(user), DashboardRoles) == Children
  {
  }
}

=== FILE: seqs.dfy ===
/** The order-keeping subsequence relation shared by the filters and folds of the portal. */
module Seqs {

  /** `a` is obtained from `b` by deleting elements, keeping the order of the rest. */
  predicate IsSubsequence<T(==)>(a: seq<T>, b: seq<T>)
    decreases |b|
  {
    || |a| == 0
    || (&& |b| > 0
        && ((a[0] == b[0] && IsSubsequence(a[1..], b[1..])) || IsSubsequence(a, b[1..])))
  }
}

=== FILE: student_dashboard.dfy ===
/** The student dashboard's header figures and tab switch: the applied,
    interviewing and offer counts, the notification dot, and which tab's
    content is rendered. */
module StudentDashboard {
  import opened Portal

  /** The number of applications whose status is in `ss`. */
  function Count(apps: seq<Doc>, ss: set<Status>): (n: nat)
    ensures n <= |apps|
    decreases |apps|
  {
    if |apps| == 0 then 0
    else (if apps[0].data.status in ss then 1 else 0) + Count(apps[1..], ss)
  }

  /** The number of applications with a status outside the five known ones. */
  function UnknownCount(apps: seq<Doc>): (n: nat)
    ensures n <= |apps|
    decreases |apps|
  {
    if |apps| == 0 then 0
    else (if IsKnown(apps[0].data.status) then 0 else 1) + UnknownCount(apps[1..])
  }

  const KnownStatuses: set<Status> := {Applied, Interviewing, OfferReceived, Accepted, Rejected}

  /** The stored statuses, in order. */
  function Statuses(apps: seq<Doc>): (r: seq<Status>)
    ensures |r| == |apps|
    ensures forall i :: 0 <= i < |apps| ==> r[i] == apps[i].data.status
  {
    seq(|apps|, i requires 0 <= i < |apps| => apps[i].data.status)
  }

  /** Counting one status is counting its occurrences among the statuses. */
  lemma {:induction false} CountOne(apps: seq<Doc>, s: Status)
    ensures Count(apps, {s}) == multiset(Statuses(apps))[s]
    decreases |apps|
  {
    if |apps| > 0 {
      CountOne(apps[1..], s);
      assert Statuses(apps) == [apps[0].data.status] + Statuses(apps[1..]);
    }
  }

  /** The "Applied" figure: how many applications are stored as applied. */
  function AppliedCount(apps: seq<Doc>): (n: nat)
    ensures n == multiset(Statuses(apps))[Applied]
  {
    CountOne(apps, Applied);
    Count(apps, {Applied})
  }

  /** The "Interviewing" figure. */
  function InterviewingCount(apps: seq<Doc>): (n: nat)
    ensures n == multiset(Statuses(apps))[Interviewing]
  {
    CountOne(apps, Interviewing);
    Count(apps, {Interviewing})
  }

  /** The "Offers" figure counts both received and accepted offers. */
  function OfferCount(apps: seq<Doc>): (n: nat)
    ensures n == multiset(Statuses(apps))[OfferReceived] + multiset(Statuses(apps))[Accepted]
  {
    CountOne(apps, OfferReceived);
    CountOne(apps, Accepted);
    CountDisjoint(apps, {OfferReceived}, {Accepted});
    assert {OfferReceived} + {Accepted} == {OfferReceived, Accepted};
    Count(apps, {OfferReceived, Accepted})
  }

  /** Counting over two disjoint status sets adds up. */
  lemma {:induction false} CountDisjoint(apps: seq<Doc>, a: set<Status>, b: set<Status>)
    requires a !! b
    ensures Count(apps, a + b) == Count(apps, a) + Count(apps, b)
    decreases |apps|
  {
    if |apps| > 0 {
      CountDisjoint(apps[1..], a, b);
    }
  }

  /** Every application has a known or an unknown status. */
  lemma {:induction false} CountKnown(apps: seq<Doc>)
    ensures Count(apps, KnownStatuses) + UnknownCount(apps) == |apps|
    decreases |apps|
  {
    if |apps| > 0 {
      CountKnown(apps[1..]);
    }
  }

  /** Some application has a status in `ss` exactly when the count is positive. */
  lemma {:induction false} CountPositive(apps: seq<Doc>, ss: set<Status>)
    ensures Count(apps, ss) > 0 <==> exists i :: 0 <= i < |apps| && apps[i].data.status in ss
    decreases |apps|
  {
    if |apps| > 0 {
      CountPositive(apps[1..], ss);
      if Count(apps[1..], ss) > 0 {
        var i :| 0 <= i < |apps[1..]| && apps[1..][i].data.status in ss;
        assert apps[i + 1] == apps[1..][i];
      }
      if exists i :: 0 <= i < |apps| && apps[i].data.status in ss {
        var i :| 0 <= i < |apps| && apps[i].data.status in ss;
        if i > 0 {
          assert apps[1..][i - 1] == apps[i];
        }
      }
    }
  }

  /** The three figures add up to the applications that are neither
      rejected nor of an unknown status, so never more than all of them. */
  lemma FiguresSum(apps: seq<Doc>)
    ensures AppliedCount(apps) + InterviewingCount(apps) + OfferCount(apps)
         == |apps| - Count(apps, {Rejected}) - UnknownCount(apps)
    ensures AppliedCount(apps) + InterviewingCount(apps) + OfferCount(apps) <= |apps|
  {
    CountsSum(apps);
    assert AppliedCount(apps) == Count(apps, {Applied});
    assert InterviewingCount(apps) == Count(apps, {Interviewing});
    assert OfferCount(apps) == Count(apps, {OfferReceived, Accepted});
  }

  /** The sum of `FiguresSum`, over the counts themselves. */
  lemma CountsSum(apps: seq<Doc>)
    ensures Count(apps, {Applied}) + Count(apps, {Interviewing}) + Count(apps, {OfferReceived, Accepted})
         == |apps| - Count(apps, {Rejected}) - UnknownCount(apps)
  {
    CountDisjoint(apps, {Applied}, {Interviewing});
    CountDisjoint(apps, {Applied, Interviewing}, {OfferReceived, Accepted});
    CountDisjoint(apps, {Applied, Interviewing, OfferReceived, Accepted}, {Rejected});
    assert {Applied} + {Interviewing} == {Applied, Interviewing};
    assert {Applied, Interviewing} + {OfferReceived, Accepted} == {Applied, Interviewing, OfferReceived, Accepted};
    assert {Applied, Interviewing, OfferReceived, Accepted} + {Rejected} == KnownStatuses;
    CountKnown(apps);
  }

  /** With only the five statuses the dashboard's data type allows, the
      figures add up to the applications that are not rejected. */
  lemma FiguresSumKnown(apps: seq<Doc>)
    requires forall i :: 0 <= i < |apps| ==> IsKnown(apps[i].data.status)
    ensures AppliedCount(apps) + InterviewingCount(apps) + OfferCount(apps) == |apps| - Count(apps, {Rejected})
  {
    FiguresSum(apps);
    NoUnknown(apps);
  }

  lemma {:induction false} NoUnknown(apps: seq<Doc>)
    requires forall i :: 0 <= i < |apps| ==> IsKnown(apps[i].data.status)
    ensures UnknownCount(apps) == 0
    decreases |apps|
  {
    if |apps| > 0 {
      assert IsKnown(apps[0].data.status);
      NoUnknown(apps[1..]);
    }
  }

  /** The red dot on the bell: shown when some application is still "applied". */
  function NotificationDot(apps: seq<Doc>): (shown: bool)
    ensures shown <==> exists i :: 0 <= i < |apps| && apps[i].data.status == Applied
  {
    CountPositive(apps, {Applied});
    AppliedCount(apps) > 0
  }

  datatype Tab = Internships | Applications | Reviews | Resume

  /** The tab shown when the dashboard opens. */
  const InitialTab: Tab := Internships

  /** The panels the dashboard can show under its figures. */
  datatype Panel = InternshipListPanel | PipelinePanel | ExperienceWallPanel | ResumeAnalyzerPanel

  /** The panel that belongs to a tab. */
  function PanelOf(t: Tab): Panel {
    match t
    case Internships => InternshipListPanel
    case Applications => PipelinePanel
    case Reviews => ExperienceWallPanel
    case Resume => ResumeAnalyzerPanel
  }

  /** The four `activeTab === ... &&` conditionals, in page order: exactly
      one of them renders, the active tab's own panel. */
  function Rendered(active: Tab): (r: seq<Panel>)
    ensures |r| == 1 && r[0] == PanelOf(active)
  {
    (if active == Internships then [InternshipListPanel] else [])
    + (if active == Applications then [PipelinePanel] else [])
    + (if active == Reviews then [ExperienceWallPanel] else [])
    + (if active == Resume then [ResumeAnalyzerPanel] else [])
  }

  /** Different tabs show different panels. */
  lemma PanelsDistinct(a: Tab, b: Tab)
    ensures Rendered(a) == Rendered(b) <==> a == b
  {
  }

  /** On opening, the internship list is shown. */
  lemma OpensOnInternships()
    ensures Rendered(InitialTab) == [InternshipListPanel]
  {
  }
}

=== FILE: text.dfy ===
/** String operations of the JavaScript runtime that the portal relies on:
    `Array.prototype.join` with a one-character separator, the matching
    split, `String.prototype.trim`, integer-to-decimal conversion and
    upper-casing of a first letter. */
module Text {

  /** `parts.join(sep)`: the parts with one `sep` between neighbours. */
  function Join(parts: seq<string>, sep: char): string
    decreases |parts|
  {
    if |parts| == 0 then ""
    else if |parts| == 1 then parts[0]
    else parts[0] + [sep] + Join(parts[1..], sep)
  }

  /** `s.split(sep)`: the maximal `sep`-free pieces between separators; never empty. */
  function Split(s: string, sep: char): (r: seq<string>)
    ensures |r| >= 1
    decreases |s|
  {
    if |s| == 0 then [""]
    else if s[0] == sep then [""] + Split(s[1..], sep)
    else
      var rest := Split(s[1..], sep);
      [[s[0]] + rest[0]] + rest[1..]
  }

  /** A separator-free string splits into itself. */
  lemma {:induction false} SplitNoSeparator(p: string, sep: char)
    requires sep !in p
    ensures Split(p, sep) == [p]
    decreases |p|
  {
    if |p| > 0 {
      assert sep !in p[1..];
      SplitNoSeparator(p[1..], sep);
      assert [p[0]] + p[1..] == p;
    }
  }

  /** Splitting at the first separator peels off the separator-free head. */
  lemma {:induction false} SplitAtFirst(p: string, sep: char, rest: string)
    requires sep !in p
    ensures Split(p + [sep] + rest, sep) == [p] + Split(rest, sep)
    decreases |p|
  {
    var s := p + [sep] + rest;
    if |p| == 0 {
      assert s[1..] == rest;
    } else {
      assert s[0] == p[0];
      assert s[1..] == p[1..] + [sep] + rest;
      assert sep !in p[1..];
      SplitAtFirst(p[1..], sep, rest);
      assert [p[0]] + p[1..] == p;
    }
  }

  /** Round trip: splitting a join of separator-free parts gives the parts back. */
  lemma {:induction false} SplitJoin(parts: seq<string>, sep: char)
    requires |parts| >= 1
    requires forall i :: 0 <= i < |parts| ==> sep !in parts[i]
    ensures Split(Join(parts, sep), sep) == parts
    decreases |parts|
  {
    if |parts| == 1 {
      SplitNoSeparator(parts[0], sep);
    } else {
      SplitJoin(parts[1..], sep);
      SplitAtFirst(parts[0], sep, Join(parts[1..], sep));
      assert [parts[0]] + parts[1..] == parts;
    }
  }

  /** A join contains the separator only between parts: it is separator-free when the parts are. */
  lemma {:induction false} JoinWithout(parts: seq<string>, sep: char, c: char)
    requires c != sep
    requires forall i :: 0 <= i < |parts| ==> c !in parts[i]
    ensures c !in Join(parts, sep)
    decreases |parts|
  {
    if |parts| > 1 {
      JoinWithout(parts[1..], sep, c);
    }
  }

  /** The characters JavaScript's `trim` removes: WhiteSpace (tab, vertical tab,
      form feed, space, no-break space, byte-order mark and the Unicode space
      separators) and LineTerminator (LF, CR, U+2028, U+2029), as ECMA-262
      defines them for `String.prototype.trim`. */
  predicate IsSpace(c: char) {
    var n := c as int;
    || n == 0x09 || n == 0x0A || n == 0x0B || n == 0x0C || n == 0x0D || n == 0x20
    || n == 0xA0 || n == 0x1680 || (0x2000 <= n <= 0x200A) || n == 0x2028 || n == 0x2029
    || n == 0x202F || n == 0x205F || n == 0x3000 || n == 0xFEFF
  }

  predicate IsBlank(s: string) {
    forall k :: 0 <= k < |s| ==> IsSpace(s[k])
  }

  /** Number of leading whitespace characters. */
  function LeadingSpace(s: string): (n: nat)
    ensures n <= |s|
    ensures forall k :: 0 <= k < n ==> IsSpace(s[k])
    ensures n < |s| ==> !IsSpace(s[n])
    decreases |s|
  {
    if |s| > 0 && IsSpace(s[0]) then 1 + LeadingSpace(s[1..]) else 0
  }

  /** Number of trailing whitespace characters. */
  function TrailingSpace(s: string): (n: nat)
    ensures n <= |s|
    ensures forall k :: |s| - n <= k < |s| ==> IsSpace(s[k])
    ensures n < |s| ==> !IsSpace(s[|s| - n - 1])
    decreases |s|
  {
    if |s| > 0 && IsSpace(s[|s| - 1]) then 1 + TrailingSpace(s[..|s| - 1]) else 0
  }

  /** `s.trim()`: the slice of `s` left after removing whitespace at both ends. */
  function Trim(s: string): (r: string)
    ensures |r| <= |s|
    ensures r == "" <==> IsBlank(s)
    ensures |r| > 0 ==> !IsSpace(r[0]) && !IsSpace(r[|r| - 1])
    ensures exists i :: 0 <= i <= |s| - |r| && s[i..i + |r|] == r
                        && IsBlank(s[..i]) && IsBlank(s[i + |r|..])
  {
    var a := LeadingSpace(s);
    if a == |s| then
      assert s[0..0] == "" && s[..0] == "" && IsBlank(s[0..]);
      ""
    else
      var b := TrailingSpace(s);
      assert !IsSpace(s[a]);
      var r := s[a..|s| - b];
      assert IsBlank(s[..a]);
      assert IsBlank(s[a + |r|..]);
      assert !IsBlank(s) by { assert !IsSpace(s[a]); }
      r
  }

  /** Whitespace before a non-space character is exactly the leading whitespace. */
  lemma {:induction false} LeadingSpacePadded(pre: string, w: string)
    requires IsBlank(pre)
    requires |w| > 0 && !IsSpace(w[0])
    ensures LeadingSpace(pre + w) == |pre|
    decreases |pre|
  {
    if |pre| > 0 {
      assert (pre + w)[1..] == pre[1..] + w;
      LeadingSpacePadded(pre[1..], w);
    } else {
      assert pre + w == w;
    }
  }

  /** Whitespace after a non-space character is exactly the trailing whitespace. */
  lemma {:induction false} TrailingSpacePadded(w: string, post: string)
    requires IsBlank(post)
    requires |w| > 0 && !IsSpace(w[|w| - 1])
    ensures TrailingSpace(w + post) == |post|
    decreases |post|
  {
    if |post| > 0 {
      assert (w + post)[..|w + post| - 1] == w + post[..|post| - 1];
      TrailingSpacePadded(w, post[..|post| - 1]);
    } else {
      assert w + post == w;
    }
  }

  /** Trimming removes exactly the whitespace padding around a word that
      begins and ends with non-space characters. */
  lemma TrimPadded(pre: string, w: string, post: string)
    requires IsBlank(pre) && IsBlank(post)
    requires |w| > 0 && !IsSpace(w[0]) && !IsSpace(w[|w| - 1])
    ensures Trim(pre + w + post) == w
  {
    var s := pre + w + post;
    assert s == pre + (w + post);
    LeadingSpacePadded(pre, w + post);
    TrailingSpacePadded(pre + w, post);
    assert s[|pre|..|s| - |post|] == w;
  }

  predicate IsDigit(c: char) {
    '0' <= c <= '9'
  }

  function DigitChar(d: int): (c: char)
    requires 0 <= d < 10
    ensures IsDigit(c)
  {
    ['0', '1', '2', '3', '4', '5', '6', '7', '8', '9'][d]
  }

  /** The value of a string of decimal digits. */
  function DecimalValue(s: string): int
    requires forall k :: 0 <= k < |s| ==> IsDigit(s[k])
    decreases |s|
  {
    if |s| == 0 then 0
    else 10 * DecimalValue(s[..|s| - 1]) + (s[|s| - 1] as int - '0' as int)
  }

  /** Decimal digits of a natural number, without leading zeros. */
  function NatText(n: nat): (r: string)
    ensures |r| >= 1
    ensures forall k :: 0 <= k < |r| ==> IsDigit(r[k])
    ensures r[0] == '0' ==> n == 0
    decreases n
  {
    if n < 10 then [DigitChar(n)] else NatText(n / 10) + [DigitChar(n % 10)]
  }

  /** Round trip: the digits of `n` denote `n`. */
  lemma {:induction false} NatTextValue(n: nat)
    ensures DecimalValue(NatText(n)) == n
    decreases n
  {
    if n >= 10 {
      NatTextValue(n / 10);
      var r := NatText(n);
      assert r[..|r| - 1] == NatText(n / 10);
    }
  }

  /** `String(n)` for an integer: an optional minus sign, then the digits of `|n|`. */
  function IntText(n: int): (r: string)
    ensures |r| >= 1
    ensures forall k :: 0 <= k < |r| ==> IsDigit(r[k]) || r[k] == '-'
    ensures n >= 0 ==> r == NatText(n)
    ensures n < 0 ==> r == "-" + NatText(-n)
  {
    if n < 0 then "-" + NatText(-n) else NatText(n)
  }

  /** ASCII upper-casing of one character; other characters are unchanged. */
  function UpperChar(c: char): (u: char)
    ensures 'a' <= c <= 'z' ==> 'A' <= u <= 'Z' && u as int == c as int - 32
    ensures !('a' <= c <= 'z') ==> u == c
  {
    if 'a' <= c <= 'z' then (c as int - 32) as char else c
  }

  /** `s.charAt(0).toUpperCase() + s.slice(1)` for ASCII text. */
  function Capitalize(s: string): (r: string)
    ensures |r| == |s|
    ensures |s| > 0 ==> r[0] == UpperChar(s[0]) && r[1..] == s[1..]
  {
    if |s| == 0 then "" else [UpperChar(s[0])] + s[1..]
  }
}

=== FILE: use_applications.dfy ===
/** The applications hook: which student's applications it subscribes to,
    and how each snapshot is turned into the displayed list by attaching
    the title and company of the referenced posting. */
module UseApplications {
  import opened Wrappers
  import opened Portal

  /** `studentId || user?.uid`; `None` stands for a falsy id. */
  function SubscriptionId(studentId: Option<string>, user: Option<UserProfile>): (id: Option<string>)
    ensures TruthyText(studentId) ==> id == studentId
    ensures !TruthyText(studentId) && user.Some? && user.value.uid != "" ==> id == Some(user.value.uid)
    ensures id.None? <==> !TruthyText(studentId) && (user.None? || user.value.uid == "")
    ensures id.Some? ==> id.value != ""
  {
    if TruthyText(studentId) then studentId
    else if user.Some? && user.value.uid != "" then Some(user.value.uid)
    else None
  }

  /** The hook's state: the displayed applications, the loading flag, and
      the student whose applications are subscribed to, if any. */
  datatype Feed = Feed(applications: seq<Doc>, loading: bool, subscribedTo: Option<string>)

  const InitialFeed := Feed([], true, None)

  /** The effect: the list is left alone, the subscription is for the
      resolved id, and loading ends at once when there is no id to
      subscribe to (otherwise it waits for the first snapshot). */
  function Subscribe(feed: Feed, studentId: Option<string>, user: Option<UserProfile>): (r: Feed)
    ensures r.applications == feed.applications
    ensures r.subscribedTo == SubscriptionId(studentId, user)
    ensures r.loading == (feed.loading && r.subscribedTo.Some?)
  {
    var id := SubscriptionId(studentId, user);
    if id.None? then feed.(loading := false, subscribedTo := None)
    else feed.(subscribedTo := id)
  }

  /** One document of the snapshot with its posting attached: only when it
      names a posting (a non-empty id) that exists. */
  function Join(d: Doc, internships: map<string, Internship>): (r: Doc)
    ensures r.id == d.id
    ensures r.data == d.data.(internship := r.data.internship)
    ensures d.data.internshipId != "" && d.data.internshipId in internships ==>
              r.data.internship == Some(Summary(internships[d.data.internshipId].title,
                                                internships[d.data.internshipId].company))
    ensures d.data.internshipId == "" || d.data.internshipId !in internships ==>
              r == d
  {
    var pid := d.data.internshipId;
    if pid != "" && pid in internships then
      var p := internships[pid];
      d.(data := d.data.(internship := Some(Summary(p.title, p.company))))
    else d
  }

  /** The `Promise.all` over the snapshot's documents: same length, same
      order, each document joined with its posting. */
  function JoinAll(docs: seq<Doc>, internships: map<string, Internship>): (r: seq<Doc>)
    ensures |r| == |docs|
    ensures forall i :: 0 <= i < |docs| ==> r[i] == Join(docs[i], internships)
  {
    seq(|docs|, i requires 0 <= i < |docs| => Join(docs[i], internships))
  }

  /** A snapshot arrives with its documents. When every posting read
      succeeds the joined list is shown and loading ends; when one fails
      the promise rejects and the state stays as it was. */
  function OnSnapshot(feed: Feed, docs: seq<Doc>, internships: map<string, Internship>, readFails: bool): (r: Feed)
    ensures readFails ==> r == feed
    ensures !readFails ==> !r.loading && r.subscribedTo == feed.subscribedTo
    ensures !readFails ==> |r.applications| == |docs|
    ensures !readFails ==> forall i :: 0 <= i < |docs| ==>
              r.applications[i].id == docs[i].id && r.applications[i].data.studentId == docs[i].data.studentId
              && r.applications[i].data.status == docs[i].data.status
  {
    if readFails then feed
    else Feed(JoinAll(docs, internships), false, feed.subscribedTo)
  }

  /** A subscription error only ends loading. */
  function OnError(feed: Feed): (r: Feed)
    ensures r.applications == feed.applications && r.subscribedTo == feed.subscribedTo
    ensures !r.loading
  {
    feed.(loading := false)
  }

  /** Joining changes nothing but `internship`, so dropping that field again
      gives back the documents as stored. */
  lemma JoinOnlyAttaches(docs: seq<Doc>, internships: map<string, Internship>)
    ensures forall i :: 0 <= i < |docs| ==>
              JoinAll(docs, internships)[i].(data := docs[i].data.(internship := None))
              == docs[i].(data := docs[i].data.(internship := None))
  {
  }

  /** A document without a posting id or whose posting is gone is shown as stored. */
  lemma MissingPostingAsStored(docs: seq<Doc>, internships: map<string, Internship>, i: nat)
    requires i < |docs|
    requires docs[i].data.internshipId == "" || docs[i].data.internshipId !in internships
    ensures JoinAll(docs, internships)[i] == docs[i]
  {
  }

  /** Joining is idempotent: attaching the summaries a second time changes nothing. */
  lemma JoinIdempotent(docs: seq<Doc>, internships: map<string, Internship>)
    ensures JoinAll(JoinAll(docs, internships), internships) == JoinAll(docs, internships)
  {
  }

  /** An explicit id beats the signed-in user's uid. */
  lemma ArgumentWins(studentId: string, user: UserProfile)
    requires studentId != ""
    ensures SubscriptionId(Some(studentId), Some(user)) == Some(studentId)
  {
  }

  /** With no id at all, the list stays empty and loading ends. */
  lemma NoIdNoApplications()
    ensures Subscribe(InitialFeed, None, None) == Feed([], false, None)
  {
  }
}

=== FILE: wrappers.dfy ===
/** Optional values: the model's reading of a JavaScript field that may be
    `undefined` or `null`. */
module Wrappers {

  datatype Option<+T> = None | Some(value: T) {

    /** The value, or `default` when absent (JavaScript's `x ?? default`). */
    function GetOr(default: T): T {
      match this
      case Some(v) => v
      case None => default
    }
  }
}
